=== FILE: README.md ===
# mget, modelled in Dafny

`mget` is a segmented, resumable HTTP downloader. It has four steps:

1. It probes a URL with a HEAD request and reads the resource length `L`.
2. It splits `[0, L)` into `t` segments.
3. It runs one task per segment. Each task sends a ranged GET, buffers the response body in memory, and flushes the buffer into its part of a preallocated output file.
4. It keeps a shared byte counter `count` and a shared cursor map. The cursor map holds one entry per segment. It starts as all zeros. A mid-body flush sets a segment's entry to the offset written up to, and completion sets it to `-1`. So a segment that has not flushed yet still shows 0.

After every flush the configuration and the cursor map are saved to `<output>.mget`. Running again with `--continue <that file>` resumes: a completed segment is credited without being fetched again, and an interrupted one restarts from its cursor. A `--cookie` flag loads a Netscape cookie jar into a `Cookie` header.

This project models the sequential logic inside that program and proves its properties. The modules, in dependency order:

- `Basics`: `Option`, `Result`, bytes, the `i64`/`u64` casts, and the completed-segment sentinel `-1`.
- `Decimal`: `u64` rendering and parsing.
- `Segments`: the segment geometry.
- `RangeHeader`: the `Range: bytes=a-b` / `bytes=a-` header, from section 14.1.2 of RFC 9110.
- `Planner`: the planning and resume loop at the head of `download`.
- `Worker`: one segment task as a step function over body events `Chunk`, `End`, `Error`, `Refused`. The file is an offset-to-byte map.
- `Job`: the invariant tying `count` to the cursor map, the progress loop's exit, the resume scenarios, and the finding below.
- `Cookies`: the cookie-jar parser.
- `Config`: the command-line loop and the resume merge.
- `Output`: the output and `.mget` paths, and preallocation of the output file.
- `Probe`: the HEAD probe's decision.

Arithmetic in the planner and in a worker's range computation follows a debug build. A `u64` subtraction below zero, an addition past `2^64 - 1`, or an index past the end of the resume record panics, and the model returns such a panic as an `Err`.

The model follows the code, including where its behaviour is easy to miss. The one departure not listed under "## Left out" is the fresh cursor map of src/main.rs:183, which the model replaces by the segment starts; see "## Findings".

Behaviours that follow from the code:

- With `t = 0` nothing divides by zero. The planning loop `0..0` never runs, no worker is spawned, and for `L > 0` the progress loop never exits (`Job.ZeroThreadsNeverFinish`).
- With `t > L`, planning succeeds. In a debug build each worker then panics computing `(n + 1) * 0 - 1` for its first request (`Worker.Step`).
- A refused request panics the worker (the `expect` on `send`). A stream error during the body only drops the buffer and retries.

## Model

| member | source | states |
|---|---|---|
| Basics.I64ToU64 | src/main.rs:198 | `status[n] as u64` keeps non-negative cursors and wraps a negative one to at least 2^63, congruent modulo 2^64 |
| Basics.CastRoundTrip | src/main.rs:198-200 | storing `sr as i64` after reading `status[n] as u64` gives back the recorded cursor |
| Decimal.ValueOfShow | src/main.rs:212 | the decimal text of an offset reads back as the same number |
| Decimal.Show | src/main.rs:212 | an offset renders as one or more digits without a leading zero |
| Decimal.ParseU64OfShow | src/main.rs:54 | `parse::<u64>` accepts the decimal text of every 64-bit value, with or without a leading `+`, and returns that value |
| Decimal.ParseU64 | src/main.rs:54 | a successful parse gives a 64-bit value from text starting with a digit or `+`; a lone `+` is rejected |
| Decimal.ValueZeroPrefix | src/main.rs:54 | a leading zero does not change the number a digit string denotes |
| Decimal.ParseU64LeadingZero | src/main.rs:54 | `parse::<u64>` accepts leading zeros and ignores them, so `"007"` parses as 7 |
| Decimal.ParseU64RejectsOverflow | src/main.rs:54 | a value of 2^64 or more is rejected, not wrapped |
| Decimal.ParseU64RejectsNonDigit | src/main.rs:54 | any character other than a digit or a leading `+` makes parsing fail |
| Segments.Credit | src/main.rs:194 | a completed segment's credit is exactly its length: start plus credit is the segment's end |
| Segments.Contiguous | src/main.rs:188-212 | segment 0 starts at 0, the last segment ends at `L`, and each segment ends where the next starts |
| Segments.NonEmpty | src/main.rs:188-211 | for `1 <= t <= L` every segment is non-empty, a non-last segment has length `L/t`, and the last absorbs the remainder, less than `t` extra bytes |
| Segments.Owner | src/main.rs:188-211 | every byte below `L` lies in some segment |
| Segments.Disjoint | src/main.rs:188-211 | no byte lies in two segments |
| Segments.HoldsIffOwner | src/main.rs:188-211 | a byte lies in segment `n` if and only if `n` is its owner, so the segments partition `[0, L)` |
| Segments.CreditSumIsPrefix | src/main.rs:193-197 | the credits of the first `k` segments add up to segment `k`'s start, and all `t` credits add up to `L` |
| Segments.WithinFile | src/main.rs:188-212 | every segment lies within `[0, L]`, even when `t > L` leaves some segments empty |
| Segments.Examples | src/main.rs:188-212 | `L = 10, t = 3` gives `[0,2] [3,5] [6,9]`; `L = 1000, t = 3` gives `[0,332] [333,665] [666,999]` |
| RangeHeader.Render | src/main.rs:212 | the header is `bytes=` followed by the first offset and `-`, then either the last offset in digits or nothing |
| RangeHeader.ParseRender | src/main.rs:212 | parsing a rendered range gives back the range: the header loses nothing |
| RangeHeader.RenderInjective | src/main.rs:212 | distinct ranges give distinct headers |
| RangeHeader.ParseSplit | src/main.rs:212 | a header of `bytes=`, one or more digits, `-` and optional digits is split at the dash: the digits before it are the first offset and those after it, if any, the last |
| Planner.FreshCursors | src/main.rs:183 | the corrected fresh cursor map: one entry per segment, equal to the segment's start |
| Planner.PendingSound | src/main.rs:190-209 | every spawned worker belongs to a segment the record leaves incomplete and starts where the record says; workers are spawned in increasing segment order |
| Planner.PendingComplete | src/main.rs:193-209 | every segment not marked complete gets a worker |
| Planner.StuckAt | src/main.rs:193-201 | a record shorter than `t`, or with a cursor before its segment's start, cannot be planned |
| Planner.OverflowStuck | src/main.rs:194-201 | once the running count passes 2^64 - 1, planning cannot succeed |
| Planner.PlanDownload | src/main.rs:182-202 | planning succeeds exactly when the loop does not panic. On success, `count` is the sum of the segment credits, the cursor map is the record (or, on a fresh run, the corrected map of segment starts), and one worker is spawned per segment not marked complete. On failure, the panic names the first failing segment and why |
| Planner.PlanSegment | src/main.rs:190-201 | one pass of the planning loop either extends the plan by segment `n` or stops with a panic at `n` that explains why the record cannot be planned |
| Planner.ResumeComplete | src/main.rs:193-197 | a sentinel entry credits its segment and keeps the sentinel, or panics when the credit pushes `count` past 2^64 - 1 |
| Planner.ResumeFrom | src/main.rs:198-201 | a cursor entry not before its segment's start, read as `u64`, spawns a worker there and credits the bytes before it; a cursor before the start or an overflowing count panics at that segment |
| Planner.ShortRecord | src/main.rs:193 | a record with no entry for segment `n` panics at `n` and cannot be planned |
| Planner.ResumedCountMono | src/main.rs:194-201 | the running count never decreases along the loop |
| Worker.RequestRange | src/main.rs:211-212 | a request from `sr` starts at `sr`; it ends at the segment's last byte, or is open-ended exactly for the last segment |
| Worker.Write | src/main.rs:152 | writing `data` at offset `at` sets exactly the offsets from `at` on, one per byte of `data`, to those bytes and keeps every other byte |
| Worker.WriteAppend | src/main.rs:152-216 | two back-to-back writes are one write of the concatenation |
| Worker.Flush | src/main.rs:151-157 | a flush writes the buffer at the handle's position, advances `sr`, `count` and the handle by the buffer's length, and leaves the buffer empty |
| Worker.Receive | src/main.rs:218-250 | a chunk that fits is appended and leaves `sr` and the cursor alone; one that would exceed the capacity forces a flush of the buffer, after which the buffer is the chunk and the cursor is the new `sr`; every received byte is kept; the end of the body flushes the rest and sets the sentinel; an error drops the buffer and goes back to requesting; the file changes only by a flush of the buffer at the handle |
| Worker.Open | src/main.rs:212-217 | a (re)request seeks the handle to `sr` (so `pos == sr`), starts with an empty buffer and appends exactly one range request from `sr` to the end of the segment (open-ended for the last one) |
| Worker.Step | src/main.rs:209-259 | one event keeps the worker valid; `count` grows exactly as `sr` does; a terminal worker stays put; completion leaves the sentinel and no buffer; a request sent is for the range from `sr`; a body chunk never overfills the buffer unless it alone exceeds the capacity; a stream error keeps `sr`, `count` and the file and goes back to requesting |
| Worker.Run | src/main.rs:209-259 | along any event sequence `sr` never decreases, `count` grows exactly as `sr` does, and the requests already sent stay a prefix of those sent afterwards |
| Worker.RunWritesContiguously | src/main.rs:216-247 | a run changes the file only on the contiguous region `[sr0, sr)` it flushed |
| Worker.RunRequests | src/main.rs:210-241 | a run only appends requests, each starting at an `sr` reached along the way |
| Worker.RetryResumesAfterFlushed | src/main.rs:210-241 | every request, including each retry after an error, starts at the first cursor plus the bytes flushed so far |
| Worker.StreamToEnd | src/main.rs:218-250 | an open body of chunks and an end drains the buffer and all chunks, in order, in one contiguous write, then sets the sentinel |
| Worker.ChunkThenEnd | src/main.rs:219-250 | whether or not a chunk forces a flush, the bytes that end up written after the end of the body are the same |
| Worker.FlushTwice | src/main.rs:151-157 | two flushes in a row write what one flush of both buffers would |
| Worker.OpenedRun | src/main.rs:210-217 | a run whose first answer is not a refusal behaves as if the request had already been sent |
| Worker.CleanDownload | src/main.rs:151-259 | an error-free exchange sends one request, writes exactly the concatenated chunks at consecutive offsets from the starting cursor, advances `sr` and `count` by their length, and completes with the sentinel; nothing else changes |
| Worker.HonestDownload | src/main.rs:209-259 | against a server honouring the range, through any errors and retries, the file equals the resource on `[sr0, sr)`, nothing outside the segment changes, and completion happens only with the segment written to its end |
| Worker.RunTerminal | src/main.rs:258 | a completed or panicked worker does nothing more |
| Worker.RunTracksCursor | src/main.rs:222-250 | the cursor-map entry equals `sr` until the segment completes and is the sentinel after |
| Job.CommittedUpdate | src/main.rs:224-250 | changing one cursor-map entry changes the committed total by exactly that segment's difference |
| Job.CommittedBounds | src/main.rs:193-201 | cursors inside their segments commit between zero and the bytes before segment `k` |
| Job.CountWithinFile | src/main.rs:270 | under the job invariant `count <= L`, and `count == L` once every entry is the sentinel |
| Job.ResumedCountIsCommitted | src/main.rs:193-201 | the count planning credits equals the bytes the record says are committed |
| Job.SafeRecordPlans | src/main.rs:190-202 | a record whose entries lie in their segments always plans, with `count <= L` |
| Job.FreshIsConsistent | src/main.rs:186 | with the corrected fresh map of segment starts, a fresh run commits nothing, matching `count = 0` |
| Job.AsWrittenFreshInconsistent | src/main.rs:183-186 | with the source's zero-filled fresh map and `2 <= t <= L`, the committed total is at most `-(L/t)`, so `count = 0` breaks the job invariant from the start |
| Job.WorkerKeepsConsistent | src/main.rs:151-250 | a worker run keeps `count` equal to the committed total given by the cursor map |
| Job.AllCompleteResume | src/main.rs:193-270 | an all-sentinel record spawns no worker and starts `count` at `L`, so the progress loop exits at once |
| Job.NoPendingWhenComplete | src/main.rs:193-197 | no worker is spawned for a record in which every segment is complete |
| Job.ZeroThreadsNeverFinish | src/main.rs:187-273 | with `t = 0` nothing is planned and the progress loop never exits for a non-empty file |
| Job.PartialResume | src/main.rs:193-212 | for `[-1,-1,c,-1]` exactly one worker, for segment 2, requests `bytes=c-<end of segment 2>`, and `count` starts at the other three lengths plus `c - start` |
| Job.FreshCursorsAsWritten | src/main.rs:183 | the source's fresh cursor map: `t` zeros |
| Job.AsWrittenResumePanics | src/main.rs:183-201 | with the source's zero-filled map, `L = 10, t = 3`, once segment 0 completes the record `[-1, 0, 0]` is left and cannot be replanned |
| Job.ZeroRecordStuck | src/main.rs:193-201 | the record `[-1, 0, 0]` for `L = 10, t = 3` passes segment 0 and stops at segment 1, whose cursor lies before that segment's start |
| Job.SegmentZeroCompletes | src/main.rs:209-250 | segment 0 of `L = 10, t = 3` completes after one three-byte chunk and leaves the sentinel in its entry, whatever the entry was before |
| Job.PlanAfterSegmentZero | src/main.rs:190-202 | the record `[-1, 3, 6]` plans two workers, at 3 and 6, and credits segment 0's three bytes |
| Job.AsWrittenFreshEntryPanics | src/main.rs:183-201 | for `2 <= t <= L` any record still holding segment 1's initial zero cannot be planned |
| Job.FreshResumeSucceeds | src/main.rs:183-201 | with segment starts as the fresh map, the same run leaves `[-1, 3, 6]`, which plans two workers at 3 and 6 and credits 3 bytes |
| Job.FreshRecordsResume | src/main.rs:183-202 | with the corrected map, every record a run can leave is plannable, with `count` equal to the committed bytes |
| Cookies.Lines | src/main.rs:34 | splitting on CRLF always gives at least one line |
| Cookies.LinesJoin | src/main.rs:34 | rejoining the lines with CRLF gives back the text |
| Cookies.LinesHaveNoCrlf | src/main.rs:34 | no line contains CRLF |
| Cookies.SingleLine | src/main.rs:34 | a text without a carriage return is one line |
| Cookies.Fields | src/main.rs:40 | splitting on each whitespace character gives one more field than the line has whitespace characters |
| Cookies.FieldsWhitespaceFree | src/main.rs:40 | no field contains whitespace, so seven fields means exactly six whitespace characters |
| Cookies.FieldsOfTabJoin | src/main.rs:40 | splitting a tab-joined line of whitespace-free fields gives back the fields |
| Cookies.FieldThenTab | src/main.rs:40 | a whitespace-free field followed by a tab splits off as one field ahead of the rest |
| Cookies.PushedIsJoinPlusSeparator | src/main.rs:36-45 | the loop pushes the joined pairs plus one trailing `"; "`, or nothing when no line is kept |
| Cookies.CookieHeader | src/main.rs:34-49 | the header is the kept lines' `name=value` pairs joined by `"; "` with no trailing separator, and empty when none is kept |
| Cookies.SingleEntry | src/main.rs:34-49 | a file of one Netscape entry yields exactly that entry's `name=value` |
| Config.ApplyFlag | src/main.rs:25-64 | `-c` names the resume file; `--cookie` stores the readable file's cookie header and fails on an unreadable one; `-t` sets the thread count exactly when its value parses as a `u64`; `-o` and `-p` set the output path and proxy; no flag touches the URL or the cursor list |
| Config.ParseArgs | src/main.rs:20-69 | the flag loop never sets the cursor list; when neither the last argument nor the one before it is a flag, the last argument is the URL; a missing value is reported only for a flag in last position |
| Config.Merge | src/main.rs:70-84 | the merged record takes `t`, `o` and `status` from the loaded record; proxy, URL and cookies from the command line when given |
| Config.MergeIdempotent | src/main.rs:75-84 | merging the same command line twice changes nothing more |
| Config.MergeNeutral | src/main.rs:75-84 | a command line without URL, proxy or cookies leaves the loaded record as it is |
| Config.MergeIgnoresThreadAndOutput | src/main.rs:75-84 | the command-line thread count and output path do not affect a resumed run |
| Config.ResolveStatus | src/main.rs:70-85 | a run without `--continue` has no cursor list; a resumed run takes `t`, `o` and the cursor list from the record |
| Config.ThreadFlag | src/main.rs:52-56 | `-t` with a 64-bit decimal sets exactly the thread count |
| Config.ThreadFlagOverflow | src/main.rs:53-54 | `-t` with a value past 64 bits stops the program |
| Config.TrailingFlag | src/main.rs:26-62 | a flag with no following argument stops the program |
| Config.CookieFlag | src/main.rs:29-50 | `--cookie` with a readable file stores that file's cookie header |
| Config.ResumeOnly | src/main.rs:70-84 | resuming with only `-c file` reproduces the stored record exactly |
| Config.Resolve | src/main.rs:20-85 | a cursor list in the final configuration always comes from a stored record; a resume file that cannot be opened or read as text is one absent from the record store, and a malformed one is present but not a record |
| Output.OutputPath | src/main.rs:164-170 | the output goes to the `-o` path, or to `output` |
| Output.StatusPath | src/main.rs:177-178 | the resume record lives at the output path with `.mget` appended |
| Output.StatusPathInjective | src/main.rs:177-178 | distinct outputs have distinct resume records, and a record never overwrites its own output |
| Output.Prepare | src/main.rs:171-175 | a fresh run's file is exactly `L` zero bytes; a resumed run keeps the file as it was |
| Output.PreparedCoversSegments | src/main.rs:171-211 | every offset any segment owns exists in a freshly prepared file |
| Probe.ContentLength | src/main.rs:127 | only visible-ASCII 64-bit decimal text gives a length |
| Probe.ProbeResource | src/main.rs:99-128 | a failed HEAD ends the run without a warning; the download starts exactly when `Content-Length` is present and readable, with a 64-bit length |
| Probe.AcceptRangesOnlyWarns | src/main.rs:120-122 | a missing `Accept-Ranges` prints the warning and changes nothing else |
| Probe.AdvertisedLength | src/main.rs:123-128 | a server advertising the decimal length of the resource starts a download of exactly that length |
| Probe.OverlongLength | src/main.rs:127 | a length past 64 bits is an error, not a wrapped download |

## Left out

- HTTP client construction (`create_client`): user agent, referer, cookie header, proxy. The HEAD request and each ranged GET are inputs: the probe's optional header values, and the worker's event sequence.
- Concurrency. The tokio tasks, the `Mutex` locks, sleeps and the global `static mut CONFIG` are not modelled. One worker is modelled at a time against the shared cursor map and `count`, and the configuration is passed explicitly.
- Interleaving of the resume-file writes. Several workers rewrite `<output>.mget` without truncating it first (src/main.rs:228-229), so a shorter record may leave stale text after it. The record is modelled as a `Properties` value.
- JSON serialisation and deserialisation of the record. Reading a record is a map from path to `Option<Properties>`, where `None` means a file that does not deserialise.
- Terminal output: the progress line, the percentage and the MB/s rate (src/main.rs:266-284) are floating-point display. Only the loop's exit test `count >= L` is modelled.
- File I/O errors (create, `set_len`, seek, `write_all` unwraps). The cookie jar is a map from path to text; a missing path is an unreadable file.
- `Vec` capacity growth. After an oversized chunk the buffer's capacity can exceed 256 KiB; the model uses a fixed capacity of 256 * 1024.
- `Worker.Step`: `sr` and `count` are unbounded inside a worker. The `u64` additions at src/main.rs:154-155 and the `sr as i64` cast at 224 are not wrapped or checked there. The planner does check them.
- `Worker.Step`: models src/main.rs:211 as in a debug build, where `(n + 1) * (L / t) - 1` underflows and panics when `t > L`. In a release build it wraps to 2^64 - 1 instead. Every segment then starts at `n * 0 = 0`, so each worker asks for `bytes=0-18446744073709551615` (the last one for `bytes=0-`) and writes the whole resource from offset 0. That wrapped behaviour is not modelled.
- `Config.ParseArgs`: `read_to_string` on a file that is not UTF-8 is folded into "unreadable".
- `Probe.ProbeResource`: `HeaderValue::to_str` is modelled by its visible-ASCII test; the header map lookup itself is an input.
- `Planner.PlanDownload`: models a debug build, where the `u64` arithmetic of src/main.rs:194 and 201 panics on overflow and underflow. A release build wraps instead: `0 - n*(L/t)` makes `count` wrap to near 2^64, so the progress loop reports completion at once while the workers re-fetch from the recorded cursor. That wrapped behaviour is not modelled.
- `Planner.PlanDownload`: on a fresh run the cursor map is the corrected map of segment starts (`Planner.FreshCursors`), not the `vec![0; t]` of src/main.rs:183; the as-written map is `Job.FreshCursorsAsWritten`, and the consequences are in "## Findings".
- `Job.FreshIsConsistent`: holds for the corrected fresh map only; with the as-written zeros the job invariant fails from the start (`Job.AsWrittenFreshInconsistent`).
- The final `task.await` joins (src/main.rs:286-288), which only propagate worker panics.

## Findings

| source | as written | input that shows it | evidently intended | confidence | as-written member | corrected member |
|---|---|---|---|---|---|---|
| src/main.rs:183 | a fresh run's cursor map is `vec![0; t]`, so the record saved after the first flush of any segment carries `0` for every segment that has not flushed yet; replanning that record computes `0 - n*(L/t)` at src/main.rs:201, which panics (debug build; a release build wraps `count` and re-fetches the unflushed segments from 0) | `L = 10, t = 3`: segment 0 downloads its 3 bytes and completes while segments 1 and 2 have not flushed; the saved record is `[-1, 0, 0]`, and `--continue` panics at segment 1 in a debug build | each fresh entry is its segment's start, so an unflushed segment resumes from its start | not executed | Job.AsWrittenResumePanics | Job.FreshRecordsResume |

=== FILE: basics.dfy ===
/** Small shared vocabulary: optional values, results, and the fixed-width
    integer conversions the downloader relies on. */
module Basics {

  datatype Option<+T> = None | Some(value: T) {
    /** The wrapped value, or `default` when there is none. */
    function GetOr(default: T): T {
      match this
      case Some(v) => v
      case None => default
    }
  }

  datatype Result<+T, +E> = Ok(value: T) | Err(error: E)

  /** A byte of the downloaded resource. */
  newtype byte = x: int | 0 <= x < 256

  const U64_LIMIT: nat := 0x1_0000_0000_0000_0000
  const U64_MAX: nat := U64_LIMIT - 1
  const I64_LIMIT: nat := 0x8000_0000_0000_0000

  /** The cursor-map entry of a segment that has been downloaded in full. */
  const SENTINEL: int := -1

  predicate IsU64(x: int) { 0 <= x < U64_LIMIT }
  predicate IsI64(x: int) { -(I64_LIMIT as int) <= x < I64_LIMIT }

  /** Rust's `x as u64` for an `i64`: negative values wrap around by 2^64. */
  function I64ToU64(x: int): (r: nat)
    requires IsI64(x)
    ensures IsU64(r)
    ensures 0 <= x ==> r == x
    ensures x < 0 ==> r >= I64_LIMIT
    ensures (r - x) % U64_LIMIT == 0
  {
    if x < 0 then x + U64_LIMIT else x
  }

  /** Rust's `x as i64` for a `u64`: values of 2^63 and above wrap to negatives. */
  function U64ToI64(x: nat): (r: int)
    requires IsU64(x)
    ensures IsI64(r)
    ensures x < I64_LIMIT ==> r == x
    ensures (x - r) % U64_LIMIT == 0
  {
    if x < I64_LIMIT then x else x - U64_LIMIT
  }

  /** The two casts undo each other, so a cursor survives the round trip
      `status[n] as u64 as i64` of the resume loop. */
  lemma CastRoundTrip(x: int)
    requires IsI64(x)
    ensures U64ToI64(I64ToU64(x)) == x
  {
  }
}

=== FILE: config.dfy ===
/** The run configuration: the command-line flags, the optional resume
    record named by `--continue`, and how the two are merged. */
module Config {
  import opened Basics
  import opened Decimal
  import Cookies

  /** The configuration record; it is also what the `.mget` resume file
      holds. `status` is the per-segment cursor list of an earlier run. */
  datatype Properties = Properties(
    t: nat,
    url: string,
    o: Option<string>,
    proxy: Option<string>,
    status: Option<seq<int>>,
    cookies: Option<string>)

  /** The configuration before any flag is read: three threads, no URL. */
  const Defaults: Properties := Properties(3, "", None, None, None, None)

  /** Ways reading the command line stops the program. An unreadable file
      is an error returned from `main`; the others are panics of an
      `unwrap`. */
  datatype ArgError =
    | MissingValue(flag: string)
    | BadThreadCount(text: string)
    | CookieFileUnreadable(path: string)
    | ResumeFileUnreadable(path: string)
    | MalformedResume(path: string)

  /** What the flag loop has gathered: the configuration so far and the
      resume file to load afterwards, if any. */
  datatype Parsed = Parsed(config: Properties, resume: Option<string>)

  predicate IsContinueFlag(a: string) { a == "--continue" || a == "-c" }
  predicate IsCookieFlag(a: string) { a == "--cookie" || a == "--cookies" || a == "-coo" }
  predicate IsThreadFlag(a: string) { a == "--thread" || a == "-t" }
  predicate IsOutputFlag(a: string) { a == "--output" || a == "-o" }
  predicate IsProxyFlag(a: string) { a == "--proxy" || a == "-p" }

  /** A flag that takes the next argument as its value; every other
      argument is the URL. */
  predicate IsFlag(a: string) {
    IsContinueFlag(a) || IsCookieFlag(a) || IsThreadFlag(a) || IsOutputFlag(a) || IsProxyFlag(a)
  }

  /** Applies one flag and its value. `jar` maps a path to the text of the
      file there; a path missing from it cannot be read. */
  function ApplyFlag(flag: string, v: string, jar: map<string, string>, acc: Parsed): (r: Result<Parsed, ArgError>)
    requires IsFlag(flag)
    ensures IsContinueFlag(flag) ==> r == Ok(acc.(resume := Some(v)))
    ensures IsCookieFlag(flag) ==> (r.Ok? <==> v in jar)
    ensures IsCookieFlag(flag) && v in jar ==>
      r.value.config == acc.config.(cookies := Some(Cookies.CookieHeader(jar[v])))
    ensures IsThreadFlag(flag) ==> (r.Ok? <==> ParseU64(v).Some?)
    ensures IsThreadFlag(flag) && ParseU64(v).Some? ==> r.value.config == acc.config.(t := ParseU64(v).value)
    ensures IsOutputFlag(flag) ==> r == Ok(acc.(config := acc.config.(o := Some(v))))
    ensures IsProxyFlag(flag) ==> r == Ok(acc.(config := acc.config.(proxy := Some(v))))
    ensures r.Err? ==> r.error == CookieFileUnreadable(v) || r.error == BadThreadCount(v)
    ensures r.Ok? ==> r.value.config.status == acc.config.status && r.value.config.url == acc.config.url
    ensures r.Ok? && !IsContinueFlag(flag) ==> r.value.resume == acc.resume
  {
    var c := acc.config;
    if IsContinueFlag(flag) then Ok(acc.(resume := Some(v)))
    else if IsCookieFlag(flag) then
      if v !in jar then Err(CookieFileUnreadable(v))
      else Ok(acc.(config := c.(cookies := Some(Cookies.CookieHeader(jar[v])))))
    else if IsThreadFlag(flag) then
      match ParseU64(v)
      case None => Err(BadThreadCount(v))
      case Some(n) => Ok(acc.(config := c.(t := n)))
    else if IsOutputFlag(flag) then Ok(acc.(config := c.(o := Some(v))))
    else Ok(acc.(config := c.(proxy := Some(v))))
  }

  /** The flag loop over the remaining arguments. It never touches the
      cursor list: only a resume record can supply one. The last argument
      is the URL whenever neither it nor the one before it is a flag: it
      then cannot be the value of a flag, whatever came earlier. */
  function ParseArgs(args: seq<string>, jar: map<string, string>, acc: Parsed): (r: Result<Parsed, ArgError>)
    ensures r.Ok? ==> r.value.config.status == acc.config.status
    ensures r.Ok? && 1 <= |args| && !IsFlag(args[|args| - 1]) && (|args| == 1 || !IsFlag(args[|args| - 2]))
      ==> r.value.config.url == args[|args| - 1]
    ensures r.Err? ==> r.error.MissingValue? || r.error.CookieFileUnreadable? || r.error.BadThreadCount?
    ensures r.Err? && r.error.MissingValue? ==> 1 <= |args| && IsFlag(r.error.flag) && r.error.flag == args[|args| - 1]
    decreases |args|
  {
    if |args| == 0 then Ok(acc)
    else if !IsFlag(args[0]) then
      ParseArgs(args[1..], jar, acc.(config := acc.config.(url := args[0])))
    else if |args| < 2 then Err(MissingValue(args[0]))
    else
      match ApplyFlag(args[0], args[1], jar, acc)
      case Err(e) => Err(e)
      case Ok(next) => ParseArgs(args[2..], jar, next)
  }

  /** The resume merge: the loaded record replaces the configuration,
      except that a proxy, a non-empty URL or cookies given on the command
      line win over the record's. */
  function Merge(cmd: Properties, loaded: Properties): (r: Properties)
    ensures r.t == loaded.t && r.o == loaded.o && r.status == loaded.status
    ensures r.proxy == (if cmd.proxy.Some? then cmd.proxy else loaded.proxy)
    ensures r.url == (if cmd.url != "" then cmd.url else loaded.url)
    ensures r.cookies == (if cmd.cookies.Some? then cmd.cookies else loaded.cookies)
  {
    var withProxy := if cmd.proxy.Some? then loaded.(proxy := cmd.proxy) else loaded;
    var withUrl := if cmd.url != "" then withProxy.(url := cmd.url) else withProxy;
    if cmd.cookies != None then withUrl.(cookies := cmd.cookies) else withUrl
  }

  /** The whole of argument handling: run the flag loop from the defaults,
      then load and merge the resume record if one was named. `records`
      maps a path to the record deserialised from it, or `None` when the
      file is there but does not hold a record. */
  function Resolve(args: seq<string>, jar: map<string, string>, records: map<string, Option<Properties>>): (r: Result<Properties, ArgError>)
    ensures r.Ok? && r.value.status.Some? ==>
      exists f :: f in records && records[f].Some? && records[f].value.status == r.value.status
    ensures (r.Err? && r.error.ResumeFileUnreadable?) ==> r.error.path !in records
    ensures (r.Err? && r.error.MalformedResume?) ==> r.error.path in records && records[r.error.path].None?
  {
    match ParseArgs(args, jar, Parsed(Defaults, None))
    case Err(e) => Err(e)
    case Ok(p) =>
      match p.resume
      case None => Ok(p.config)
      case Some(f) =>
        if f !in records then Err(ResumeFileUnreadable(f))
        else match records[f]
          case None => Err(MalformedResume(f))
          case Some(rec) => Ok(Merge(p.config, rec))
  }

  /** Merging is idempotent: merging the same command line into a merged
      record again changes nothing. */
  lemma MergeIdempotent(cmd: Properties, loaded: Properties)
    ensures Merge(cmd, Merge(cmd, loaded)) == Merge(cmd, loaded)
  {
  }

  /** A command line with no URL, proxy or cookies leaves the record as it
      was loaded. */
  lemma MergeNeutral(cmd: Properties, loaded: Properties)
    requires cmd.url == "" && cmd.proxy.None? && cmd.cookies.None?
    ensures Merge(cmd, loaded) == loaded
  {
  }

  /** The command line's thread count, output path and cursor list have no
      effect on a resumed run: two command lines that agree on URL, proxy
      and cookies give the same merged record. */
  lemma MergeIgnoresThreadAndOutput(cmd1: Properties, cmd2: Properties, loaded: Properties)
    requires cmd1.url == cmd2.url && cmd1.proxy == cmd2.proxy && cmd1.cookies == cmd2.cookies
    ensures Merge(cmd1, loaded) == Merge(cmd2, loaded)
  {
  }

  /** A run without `--continue` never carries a cursor list, so it always
      plans from scratch; a resumed run takes its thread count, output path
      and cursor list from the record. */
  lemma ResolveStatus(args: seq<string>, jar: map<string, string>, records: map<string, Option<Properties>>)
    requires Resolve(args, jar, records).Ok?
    ensures ParseArgs(args, jar, Parsed(Defaults, None)).Ok?
    ensures var p := ParseArgs(args, jar, Parsed(Defaults, None)).value;
      && (p.resume.None? ==> Resolve(args, jar, records).value.status.None?)
      && (p.resume.Some? ==>
            (p.resume.value in records && records[p.resume.value].Some?
             && var rec := records[p.resume.value].value;
                var r := Resolve(args, jar, records).value;
                r.t == rec.t && r.o == rec.o && r.status == rec.status))
  {
  }

  /** `-t` followed by the decimal text of a 64-bit count sets the thread
      count to it, and to nothing else. */
  lemma ThreadFlag(n: nat, acc: Parsed, jar: map<string, string>)
    requires IsU64(n)
    ensures ParseArgs(["-t", Show(n)], jar, acc) == Ok(acc.(config := acc.config.(t := n)))
  {
    ParseU64OfShow(n);
    assert ["-t", Show(n)][2..] == [];
  }

  /** A thread count beyond 64 bits stops the program instead of wrapping. */
  lemma ThreadFlagOverflow(n: nat, acc: Parsed, jar: map<string, string>)
    requires !IsU64(n)
    ensures ParseArgs(["-t", Show(n)], jar, acc) == Err(BadThreadCount(Show(n)))
  {
    ParseU64RejectsOverflow(n);
  }

  /** A flag in last position has no value to take. */
  lemma TrailingFlag(flag: string, acc: Parsed, jar: map<string, string>)
    requires IsFlag(flag)
    ensures ParseArgs([flag], jar, acc) == Err(MissingValue(flag))
  {
  }

  /** `--cookie` with a readable file stores that file's cookie header. */
  lemma CookieFlag(path: string, acc: Parsed, jar: map<string, string>)
    requires path in jar
    ensures ParseArgs(["--cookie", path], jar, acc)
      == Ok(acc.(config := acc.config.(cookies := Some(Cookies.CookieHeader(jar[path])))))
  {
    assert ["--cookie", path][2..] == [];
  }

  /** Resuming with only `-c file` reproduces the stored record exactly. */
  lemma ResumeOnly(f: string, rec: Properties, jar: map<string, string>, records: map<string, Option<Properties>>)
    requires f in records && records[f] == Some(rec)
    ensures Resolve(["-c", f], jar, records) == Ok(rec)
  {
    assert ["-c", f][2..] == [];
    assert ParseArgs(["-c", f], jar, Parsed(Defaults, None)) == Ok(Parsed(Defaults, Some(f)));
    MergeNeutral(Defaults, rec);
  }
}

=== FILE: cookies.dfy ===
/** The cookie-jar reader behind `--cookie`: the file's text is split into
    lines on CRLF, comment and empty lines are skipped, every remaining line
    that splits into exactly seven fields on single whitespace characters
    contributes `name=value` from its sixth and seventh fields, and the
    pairs are joined with `"; "` into one `Cookie` header value. */
module Cookies {

  const CRLF: string := "\r\n"
  const SEPARATOR: string := "; "

  /** Rust's `char::is_whitespace`: the Unicode White_Space property. */
  predicate IsWhitespace(c: char) {
    || ('\U{0009}' <= c <= '\U{000D}')
    || c == ' '
    || c == '\U{0085}'
    || c == '\U{00A0}'
    || c == '\U{1680}'
    || ('\U{2000}' <= c <= '\U{200A}')
    || c == '\U{2028}'
    || c == '\U{2029}'
    || c == '\U{202F}'
    || c == '\U{205F}'
    || c == '\U{3000}'
  }

  /** Joins `parts` with `sep` between consecutive parts. */
  function Join(parts: seq<string>, sep: string): string {
    if |parts| == 0 then ""
    else if |parts| == 1 then parts[0]
    else parts[0] + sep + Join(parts[1..], sep)
  }

  /** `s.split("\r\n")`: the pieces between non-overlapping CRLF pairs,
      matched left to right; always at least one piece. */
  function Lines(s: string): (r: seq<string>)
    ensures |r| >= 1
    decreases |s|
  {
    if |s| == 0 then [""]
    else if |s| >= 2 && s[..2] == CRLF then [""] + Lines(s[2..])
    else var rest := Lines(s[1..]); [[s[0]] + rest[0]] + rest[1..]
  }

  /** A CRLF pair starts at index `i` of `s`. */
  predicate CrlfAt(s: string, i: int) {
    0 <= i < |s| - 1 && s[i] == '\r' && s[i + 1] == '\n'
  }

  /** `s` contains CRLF somewhere. */
  predicate HasCrlf(s: string) {
    exists i :: 0 <= i < |s| && CrlfAt(s, i)
  }

  /** Joining the lines back with CRLF restores the text. */
  lemma {:induction false} LinesJoin(s: string)
    ensures Join(Lines(s), CRLF) == s
    decreases |s|
  {
    if |s| == 0 {
    } else if |s| >= 2 && s[..2] == CRLF {
      LinesJoin(s[2..]);
      var rest := Lines(s[2..]);
      assert s == CRLF + s[2..];
      if |rest| == 1 {
        assert Join([""] + rest, CRLF) == "" + CRLF + rest[0];
      } else {
        assert ([""] + rest)[1..] == rest;
      }
    } else {
      LinesJoin(s[1..]);
      var rest := Lines(s[1..]);
      var r := [[s[0]] + rest[0]] + rest[1..];
      assert s == [s[0]] + s[1..];
      if |rest| == 1 {
        assert Join(r, CRLF) == [s[0]] + rest[0];
      } else {
        assert Join(rest, CRLF) == rest[0] + CRLF + Join(rest[1..], CRLF);
        assert r[1..] == rest[1..];
      }
    }
  }

  /** No line contains CRLF: every pair was consumed as a separator. */
  lemma LinesHaveNoCrlf(s: string)
    ensures forall i :: 0 <= i < |Lines(s)| ==> !HasCrlf(Lines(s)[i])
  {
    forall i | 0 <= i < |Lines(s)|
      ensures !HasCrlf(Lines(s)[i])
    {
      LineHasNoCrlf(s, i);
    }
  }

  lemma {:induction false} LineHasNoCrlf(s: string, i: nat)
    requires i < |Lines(s)|
    ensures !HasCrlf(Lines(s)[i])
    decreases |s|
  {
    if |s| == 0 {
    } else if |s| >= 2 && s[..2] == CRLF {
      if i > 0 {
        assert Lines(s)[i] == Lines(s[2..])[i - 1];
        LineHasNoCrlf(s[2..], i - 1);
      }
    } else {
      var rest := Lines(s[1..]);
      if i > 0 {
        assert Lines(s)[i] == rest[i];
        LineHasNoCrlf(s[1..], i);
      } else {
        LineHasNoCrlf(s[1..], 0);
        HeadHasNoCrlf(s);
      }
    }
  }

  /** The first line of a text that does not start with CRLF extends the
      first line of the rest by one character without creating a CRLF. */
  lemma HeadHasNoCrlf(s: string)
    requires 1 <= |s| && !(|s| >= 2 && s[..2] == CRLF)
    requires !HasCrlf(Lines(s[1..])[0])
    ensures !HasCrlf(Lines(s)[0])
  {
    FirstLineCons(s);
    ConsNoCrlf(s[0], Lines(s[1..])[0]);
  }

  /** Without a CRLF at the front, the first line is the first character
      followed by the first line of the rest, and that rest does not start
      with the `\n` of a pair. */
  lemma FirstLineCons(s: string)
    requires 1 <= |s| && !(|s| >= 2 && s[..2] == CRLF)
    ensures Lines(s)[0] == [s[0]] + Lines(s[1..])[0]
    ensures var rest := Lines(s[1..])[0]; |rest| >= 1 ==> !(s[0] == '\r' && rest[0] == '\n')
  {
    var rest := Lines(s[1..])[0];
    if |rest| >= 1 {
      LineHeads(s[1..]);
      assert s[..2] == [s[0], s[1]];
    }
  }

  /** Prefixing a character creates no CRLF unless it is a `\r` put in
      front of a `\n`. */
  lemma ConsNoCrlf(c: char, x: string)
    requires !HasCrlf(x)
    requires |x| >= 1 ==> !(c == '\r' && x[0] == '\n')
    ensures !HasCrlf([c] + x)
  {
    var y := [c] + x;
    forall k | 0 <= k < |y|
      ensures !CrlfAt(y, k)
    {
      if k >= 1 {
        assert !CrlfAt(x, k - 1);
      }
    }
  }

  /** When the first line is non-empty, it starts with the text's first
      character; a line never starts with the `\n` of a consumed pair. */
  lemma {:induction false} LineHeads(s: string)
    requires 1 <= |Lines(s)[0]|
    ensures 1 <= |s| && Lines(s)[0][0] == s[0]
    ensures !(|s| >= 2 && s[..2] == CRLF)
  {
  }

  /** `s.split(char::is_whitespace)`: the pieces between single whitespace
      characters; consecutive whitespace yields empty pieces. */
  function Fields(s: string): (r: seq<string>)
    ensures |r| == WhitespaceCount(s) + 1
    decreases |s|
  {
    if |s| == 0 then [""]
    else if IsWhitespace(s[0]) then [""] + Fields(s[1..])
    else var rest := Fields(s[1..]); [[s[0]] + rest[0]] + rest[1..]
  }

  /** How many whitespace characters `s` holds. */
  function WhitespaceCount(s: string): nat {
    if |s| == 0 then 0 else (if IsWhitespace(s[0]) then 1 else 0) + WhitespaceCount(s[1..])
  }

  /** No field contains whitespace. With the count on `Fields`, a line
      has exactly seven fields when it holds exactly six whitespace
      characters. */
  lemma {:induction false} FieldsWhitespaceFree(s: string)
    ensures forall i, j :: 0 <= i < |Fields(s)| && 0 <= j < |Fields(s)[i]| ==> !IsWhitespace(Fields(s)[i][j])
    decreases |s|
  {
    if |s| > 0 {
      FieldsWhitespaceFree(s[1..]);
      var r := Fields(s);
      var rest := Fields(s[1..]);
      if IsWhitespace(s[0]) {
        assert forall i :: 1 <= i < |r| ==> r[i] == rest[i - 1];
      } else {
        assert forall i :: 1 <= i < |r| ==> r[i] == rest[i];
        assert forall j :: 1 <= j < |r[0]| ==> r[0][j] == rest[0][j - 1];
      }
    }
  }

  /** A line the reader keeps: not a comment, not empty, seven fields. */
  predicate Kept(line: string) {
    !(|line| > 0 && line[0] == '#') && line != "" && |Fields(line)| == 7
  }

  /** The `name=value` pair of a kept line. */
  function Pair(line: string): string
    requires Kept(line)
  {
    var f := Fields(line);
    f[5] + "=" + f[6]
  }

  /** The pairs of the kept lines, in file order. */
  function Pairs(lines: seq<string>): seq<string> {
    if |lines| == 0 then []
    else (if Kept(lines[0]) then [Pair(lines[0])] else []) + Pairs(lines[1..])
  }

  /** What the loop pushes: `"{name}={value}; "` for every kept line. */
  function Pushed(lines: seq<string>): string {
    if |lines| == 0 then ""
    else (if Kept(lines[0]) then Pair(lines[0]) + SEPARATOR else "") + Pushed(lines[1..])
  }

  /** `String::pop`: drops the last character, if any. */
  function Pop(s: string): (r: string)
    ensures |s| > 0 ==> r == s[..|s| - 1]
    ensures |s| == 0 ==> r == s
  {
    if |s| == 0 then s else s[..|s| - 1]
  }

  /** The header value as the source computes it: push every kept pair with
      a trailing separator, then pop two characters, since the line list is
      never empty. The pop-twice idiom is a join: the result is the kept
      lines' pairs joined by `"; "` with no trailing separator, and empty
      when no line is kept. */
  function CookieHeader(text: string): (h: string)
    ensures h == Join(Pairs(Lines(text)), SEPARATOR)
  {
    var lines := Lines(text);
    var pushed := Pushed(lines);
    PushedIsJoinPlusSeparator(lines);
    var j := Join(Pairs(lines), SEPARATOR);
    assert Pairs(lines) != [] ==> Pop(pushed) == j + "; "[..1] && Pop(j + "; "[..1]) == j;
    if |lines| > 0 then Pop(Pop(pushed)) else pushed
  }

  /** The pushed text is the joined pairs followed by one trailing
      separator, or nothing at all when no line is kept. */
  lemma {:induction false} PushedIsJoinPlusSeparator(lines: seq<string>)
    ensures Pairs(lines) == [] ==> Pushed(lines) == ""
    ensures Pairs(lines) != [] ==> Pushed(lines) == Join(Pairs(lines), SEPARATOR) + SEPARATOR
  {
    if |lines| > 0 {
      PushedIsJoinPlusSeparator(lines[1..]);
      var rest := Pairs(lines[1..]);
      if Kept(lines[0]) {
        assert Pairs(lines) == [Pair(lines[0])] + rest;
        assert Pushed(lines) == Pair(lines[0]) + SEPARATOR + Pushed(lines[1..]);
        if rest != [] {
          assert ([Pair(lines[0])] + rest)[1..] == rest;
        } else {
          assert Pairs(lines) == [Pair(lines[0])];
        }
      } else {
        assert Pairs(lines) == rest;
      }
    }
  }

  /** Text without a carriage return is a single line. */
  lemma {:induction false} SingleLine(s: string)
    requires forall i :: 0 <= i < |s| ==> s[i] != '\r'
    ensures Lines(s) == [s]
    decreases |s|
  {
    if |s| > 0 {
      SingleLine(s[1..]);
      assert [s[0]] + s[1..] == s;
    }
  }

  /** One step of the field split, stated on a character and the rest. */
  lemma FieldsCons(c: char, s: string)
    ensures IsWhitespace(c) ==> Fields([c] + s) == [""] + Fields(s)
    ensures !IsWhitespace(c) ==> Fields([c] + s) == [[c] + Fields(s)[0]] + Fields(s)[1..]
  {
    assert ([c] + s)[0] == c;
    assert ([c] + s)[1..] == s;
  }

  /** `s` holds no whitespace character. */
  predicate Plain(s: string) {
    forall i :: 0 <= i < |s| ==> !IsWhitespace(s[i])
  }

  /** A whitespace-free field followed by a tab splits off as one field. */
  lemma {:induction false} FieldThenTab(a: string, rest: string)
    requires Plain(a)
    ensures Fields(a + "\t" + rest) == [a] + Fields(rest)
    decreases |a|
  {
    if |a| == 0 {
      FieldsCons('\t', rest);
      assert a + "\t" + rest == ['\t'] + rest;
    } else {
      var tail := a[1..] + "\t" + rest;
      FieldThenTab(a[1..], rest);
      FieldsCons(a[0], tail);
      assert a + "\t" + rest == [a[0]] + tail;
      assert [a[0]] + a[1..] == a;
    }
  }

  /** Splitting a tab-joined line of whitespace-free fields gives the
      fields back. */
  lemma {:induction false} FieldsOfTabJoin(parts: seq<string>)
    requires |parts| >= 1
    requires forall k :: 0 <= k < |parts| ==> Plain(parts[k])
    ensures Fields(Join(parts, "\t")) == parts
  {
    if |parts| == 1 {
      FieldsOfPlain(parts[0]);
    } else {
      FieldsOfTabJoin(parts[1..]);
      FieldThenTab(parts[0], Join(parts[1..], "\t"));
      assert [parts[0]] + parts[1..] == parts;
    }
  }

  /** A whitespace-free text is one field. */
  lemma {:induction false} FieldsOfPlain(s: string)
    requires Plain(s)
    ensures Fields(s) == [s]
    decreases |s|
  {
    if |s| > 0 {
      FieldsOfPlain(s[1..]);
      FieldsCons(s[0], s[1..]);
      assert [s[0]] + s[1..] == s;
    }
  }

  /** A tab-joined line of whitespace-free fields holds no carriage return. */
  lemma {:induction false} TabJoinHasNoCr(parts: seq<string>)
    requires forall k :: 0 <= k < |parts| ==> Plain(parts[k])
    ensures forall i :: 0 <= i < |Join(parts, "\t")| ==> Join(parts, "\t")[i] != '\r'
  {
    if |parts| > 1 {
      TabJoinHasNoCr(parts[1..]);
      var rest := Join(parts[1..], "\t");
      var s := Join(parts, "\t");
      assert s == parts[0] + "\t" + rest;
      forall i | 0 <= i < |s| ensures s[i] != '\r' {
        if i < |parts[0]| {
          assert s[i] == parts[0][i];
        } else if i > |parts[0]| {
          assert s[i] == rest[i - |parts[0]| - 1];
        }
      }
    }
  }

  /** A file holding one Netscape entry (seven tab-separated whitespace-free
      fields, the first neither empty nor a comment marker) yields exactly
      that entry's `name=value`. */
  lemma SingleEntry(fields: seq<string>)
    requires |fields| == 7
    requires forall k :: 0 <= k < 7 ==> Plain(fields[k])
    requires fields[0] != "" && fields[0][0] != '#'
    ensures CookieHeader(Join(fields, "\t")) == fields[5] + "=" + fields[6]
  {
    var line := Join(fields, "\t");
    TabJoinHasNoCr(fields);
    SingleLine(line);
    FieldsOfTabJoin(fields);
    assert line == fields[0] + "\t" + Join(fields[1..], "\t");
    assert line[0] == fields[0][0];
    assert Kept(line);
    assert Pairs([line]) == [fields[5] + "=" + fields[6]];
  }
}

=== FILE: decimal.dfy ===
/** Decimal rendering of byte offsets (Rust's `{}` formatting of a `u64`)
    and parsing of unsigned decimal text (Rust's `str::parse::<u64>`). */
module Decimal {
  import opened Basics

  predicate IsDigit(c: char) { '0' <= c <= '9' }

  predicate AllDigits(s: string) {
    forall i :: 0 <= i < |s| ==> IsDigit(s[i])
  }

  function DigitChar(d: nat): (c: char)
    requires d < 10
    ensures IsDigit(c)
  {
    ('0' as int + d) as char
  }

  function DigitValue(c: char): (d: nat)
    requires IsDigit(c)
    ensures d < 10
  {
    c as int - '0' as int
  }

  /** The shortest decimal text of `n`, most significant digit first. */
  function Show(n: nat): (s: string)
    ensures 1 <= |s|
    ensures AllDigits(s)
    ensures |s| > 1 ==> s[0] != '0'
    decreases n
  {
    if n < 10 then [DigitChar(n)] else Show(n / 10) + [DigitChar(n % 10)]
  }

  /** The number a string of digits denotes (leading zeros allowed). */
  function Value(s: string): nat
    requires AllDigits(s)
    decreases |s|
  {
    if |s| == 0 then 0 else Value(s[..|s| - 1]) * 10 + DigitValue(s[|s| - 1])
  }

  /** Reading back what `Show` wrote gives the same number. */
  lemma {:induction false} ValueOfShow(n: nat)
    ensures Value(Show(n)) == n
    decreases n
  {
    if n >= 10 {
      var s := Show(n);
      assert s[..|s| - 1] == Show(n / 10);
      ValueOfShow(n / 10);
    }
  }

  /** Rust's `u64::from_str`: an optional leading `+`, then one or more
      ASCII digits whose value fits in 64 bits; anything else is an error. */
  function ParseU64(s: string): (r: Option<nat>)
    ensures r.Some? ==> IsU64(r.value)
    ensures r.Some? ==> 1 <= |s| && (IsDigit(s[0]) || s[0] == '+')
    ensures s == "+" ==> r.None?
  {
    var body := if 0 < |s| && s[0] == '+' then s[1..] else s;
    if |body| == 0 || !AllDigits(body) then None
    else if Value(body) > U64_MAX then None
    else Some(Value(body))
  }

  /** Every 64-bit value survives rendering and parsing, with or without a
      leading plus sign. */
  lemma ParseU64OfShow(n: nat)
    requires IsU64(n)
    ensures ParseU64(Show(n)) == Some(n)
    ensures ParseU64("+" + Show(n)) == Some(n)
  {
    ValueOfShow(n);
    assert ("+" + Show(n))[1..] == Show(n);
  }

  /** A leading zero does not change the number digits denote. */
  lemma {:induction false} ValueZeroPrefix(s: string)
    requires AllDigits(s)
    ensures AllDigits("0" + s) && Value("0" + s) == Value(s)
    decreases |s|
  {
    if |s| > 0 {
      assert ("0" + s)[..|"0" + s| - 1] == "0" + s[..|s| - 1];
      ValueZeroPrefix(s[..|s| - 1]);
    }
  }

  /** Leading zeros are accepted and ignored: `"007"` parses as 7. */
  lemma ParseU64LeadingZero(s: string)
    requires 1 <= |s| && AllDigits(s)
    ensures ParseU64("0" + s) == ParseU64(s)
  {
    ValueZeroPrefix(s);
  }

  /** A value of 2^64 or more is rejected rather than wrapped. */
  lemma ParseU64RejectsOverflow(n: nat)
    requires !IsU64(n)
    ensures ParseU64(Show(n)) == None
  {
    ValueOfShow(n);
  }

  /** Text holding a character that is neither a digit nor a leading `+`
      never parses. */
  lemma ParseU64RejectsNonDigit(s: string, i: nat)
    requires i < |s| && !IsDigit(s[i]) && !(i == 0 && s[0] == '+')
    ensures ParseU64(s) == None
  {
    if 0 < |s| && s[0] == '+' {
      assert s[1..][i - 1] == s[i];
    }
  }
}

=== FILE: job.dfy ===
/** The download as a whole: the bytes-committed invariant tying the shared
    `count` to the cursor map, how planning and the workers keep it, when
    the progress loop stops, and the all-complete and partial resume
    scenarios. */
module Job {
  import opened Basics
  import opened Segments
  import opened Planner
  import opened RangeHeader
  import Worker

  /** Bytes segment `n` has committed according to its cursor-map entry:
      all of them for the sentinel, those before the cursor otherwise. */
  function SegmentCommitted(L: nat, t: nat, n: nat, c: int): int
    requires 1 <= t && n < t
  {
    if c == SENTINEL then Credit(L, t, n) else c - Start(L, t, n)
  }

  /** Bytes committed by segments `0 .. k-1`. */
  function Committed(L: nat, t: nat, cursors: seq<int>, k: nat): int
    requires k <= t && k <= |cursors|
  {
    if k == 0 then 0 else Committed(L, t, cursors, k - 1) + SegmentCommitted(L, t, k - 1, cursors[k - 1])
  }

  /** The job invariant: the shared `count` equals the bytes the cursor map
      says are committed. */
  predicate Consistent(L: nat, t: nat, count: nat, cursors: seq<int>) {
    t <= |cursors| && count == Committed(L, t, cursors, t)
  }

  /** Every entry is the sentinel or a cursor inside its segment. */
  predicate InSegments(L: nat, t: nat, cursors: seq<int>) {
    && t <= |cursors|
    && forall n :: 0 <= n < t ==>
         cursors[n] == SENTINEL || Start(L, t, n) <= cursors[n] <= Limit(L, t, n)
  }

  /** The progress loop's exit test. */
  predicate ProgressDone(count: nat, L: nat) {
    count >= L
  }

  /** Changing entry `n` changes the committed total by the difference of
      that segment's contributions, and nothing else. */
  lemma {:induction false} CommittedUpdate(L: nat, t: nat, cs: seq<int>, k: nat, n: nat, x: int)
    requires k <= t && k <= |cs| && n < |cs|
    ensures Committed(L, t, cs[n := x], k)
      == Committed(L, t, cs, k)
         + (if n < k then SegmentCommitted(L, t, n, x) - SegmentCommitted(L, t, n, cs[n]) else 0)
  {
    if k > 0 {
      CommittedUpdate(L, t, cs, k - 1, n, x);
    }
  }

  /** Cursors inside their segments commit between nothing and the bytes
      before segment `k`, so the total never exceeds `L`. */
  lemma {:induction false} CommittedBounds(L: nat, t: nat, cs: seq<int>, k: nat)
    requires 1 <= t && InSegments(L, t, cs) && k <= t
    ensures 0 <= Committed(L, t, cs, k) <= CreditSum(L, t, k)
  {
    if k > 0 {
      CommittedBounds(L, t, cs, k - 1);
    }
  }

  /** The job invariant keeps `count` within the file: `0 <= count <= L`,
      and `count == L` once every segment is marked complete. */
  lemma CountWithinFile(L: nat, t: nat, count: nat, cs: seq<int>)
    requires 1 <= t && Consistent(L, t, count, cs) && InSegments(L, t, cs)
    ensures count <= L
    ensures (forall n :: 0 <= n < t ==> cs[n] == SENTINEL) ==> count == L
  {
    CommittedBounds(L, t, cs, t);
    CreditSumIsPrefix(L, t, t);
    if forall n :: 0 <= n < t ==> cs[n] == SENTINEL {
      AllSentinelCommitted(L, t, cs, t);
    }
  }

  lemma {:induction false} AllSentinelCommitted(L: nat, t: nat, cs: seq<int>, k: nat)
    requires 1 <= t && k <= t <= |cs|
    requires forall n :: 0 <= n < t ==> cs[n] == SENTINEL
    ensures Committed(L, t, cs, k) == CreditSum(L, t, k)
  {
    if k > 0 {
      AllSentinelCommitted(L, t, cs, k - 1);
    }
  }

  /** A resume record whose cursors are non-negative credits exactly what
      the cursor map says is committed: planning establishes the job
      invariant. */
  lemma {:induction false} ResumedCountIsCommitted(L: nat, t: nat, st: seq<int>, k: nat)
    requires 1 <= t && IsRecord(st) && ResumableUpTo(L, t, st, k)
    requires forall n :: 0 <= n < k ==> st[n] == SENTINEL || 0 <= st[n]
    ensures ResumedCount(L, t, st, k) == Committed(L, t, st, k)
  {
    if k > 0 {
      ResumedCountIsCommitted(L, t, st, k - 1);
    }
  }

  /** A record whose entries all lie in their segments can always be
      resumed: planning does not panic, and it starts `count` at the
      committed total, which is at most `L`. */
  lemma SafeRecordPlans(L: nat, t: nat, st: seq<int>)
    requires 1 <= t && IsU64(L) && IsRecord(st) && InSegments(L, t, st)
    ensures Plannable(L, t, Some(st))
    ensures ResumedCount(L, t, st, t) == Committed(L, t, st, t) <= L
  {
    assert ResumableUpTo(L, t, st, t);
    ResumedCountIsCommitted(L, t, st, t);
    CommittedBounds(L, t, st, t);
    CreditSumIsPrefix(L, t, t);
  }

  /** A fresh plan (no record) is consistent: nothing is committed, each
      entry is its segment's start. */
  lemma {:induction false} FreshIsConsistent(L: nat, t: nat, k: nat)
    requires k <= t
    ensures Committed(L, t, FreshCursors(L, t), k) == 0
  {
    if k > 0 {
      FreshIsConsistent(L, t, k - 1);
    }
  }

  /** With the source's zero-filled fresh map the job invariant fails from
      the start once a second segment exists: segment `n` then commits
      `0 - n * (L / t)` bytes, so the committed total is negative while
      `count` starts at 0. */
  lemma AsWrittenFreshInconsistent(L: nat, t: nat)
    requires 2 <= t <= L
    ensures Committed(L, t, FreshCursorsAsWritten(t), t) <= -(L / t) < 0
    ensures !Consistent(L, t, 0, FreshCursorsAsWritten(t))
  {
    assert 1 <= L / t;
    ZerosCommitted(L, t, t);
  }

  lemma {:induction false} ZerosCommitted(L: nat, t: nat, k: nat)
    requires 1 <= t && k <= t
    ensures Committed(L, t, FreshCursorsAsWritten(t), k) <= 0
    ensures 2 <= k ==> Committed(L, t, FreshCursorsAsWritten(t), k) <= -(L / t)
  {
    if k > 0 {
      ZerosCommitted(L, t, k - 1);
      var zeros := FreshCursorsAsWritten(t);
      assert SegmentCommitted(L, t, k - 1, zeros[k - 1]) == 0 - Start(L, t, k - 1);
      if 2 <= k {
        MulMono(L / t, 1, k - 1);
      }
    }
  }

  /** A worker for segment `n` whose entry is its starting cursor keeps the
      job invariant through any run, provided it only completes at its
      segment's end: every flush adds to `count` exactly what it moves the
      cursor, and completion swaps the cursor at the segment's end for the
      sentinel, which commits the same bytes. */
  lemma WorkerKeepsConsistent(L: nat, t: nat, cs: seq<int>, w: Worker.State, es: seq<Worker.Event>)
    requires w.seg.t == t && w.seg.L == L && w.seg.n < t <= |cs|
    requires Worker.Valid(w) && w.phase == Worker.Requesting
    requires cs[w.seg.n] == w.sr == w.cursor
    requires Consistent(L, t, w.count, cs)
    requires var r := Worker.Run(w, es); r.phase == Worker.Complete ==> r.sr == Worker.SegmentLimit(w.seg)
    ensures var r := Worker.Run(w, es); Consistent(L, t, r.count, cs[w.seg.n := r.cursor])
  {
    var r := Worker.Run(w, es);
    Worker.RunTracksCursor(w, es);
    CommittedUpdate(L, t, cs, t, w.seg.n, r.cursor);
  }

  /** Resuming a record in which every segment is complete spawns no
      worker and starts `count` at `L`, so the progress loop ends at once. */
  lemma AllCompleteResume(L: nat, t: nat, st: seq<int>)
    requires 1 <= t <= |st| && IsU64(L)
    requires forall n :: 0 <= n < |st| ==> st[n] == SENTINEL
    ensures IsRecord(st) && Plannable(L, t, Some(st))
    ensures ResumedCount(L, t, st, t) == L
    ensures Pending(L, t, Some(st), t) == []
    ensures ProgressDone(ResumedCount(L, t, st, t), L)
  {
    assert InSegments(L, t, st);
    SafeRecordPlans(L, t, st);
    AllSentinelCommitted(L, t, st, t);
    CreditSumIsPrefix(L, t, t);
    NoPendingWhenComplete(L, t, st, t);
  }

  lemma {:induction false} NoPendingWhenComplete(L: nat, t: nat, st: seq<int>, k: nat)
    requires 1 <= t && k <= t <= |st| && IsRecord(st)
    requires forall n :: 0 <= n < |st| ==> st[n] == SENTINEL
    ensures Pending(L, t, Some(st), k) == []
  {
    if k > 0 {
      NoPendingWhenComplete(L, t, st, k - 1);
    }
  }

  /** With zero threads the planning loop does nothing: no worker, no
      credit, an empty cursor map; so for a non-empty file the progress
      loop never sees `count >= L` and spins forever. */
  lemma ZeroThreadsNeverFinish(L: nat, status: Option<seq<int>>)
    requires 0 < L
    requires status.Some? ==> IsRecord(status.value)
    ensures Plannable(L, 0, status)
    ensures Pending(L, 0, status, 0) == []
    ensures status.Some? ==> !ProgressDone(ResumedCount(L, 0, status.value, 0), L)
    ensures status.None? ==> !ProgressDone(0, L)
  {
  }

  /** The partial-resume scenario: four segments, the third interrupted at
      cursor `c`, the others complete. Exactly one worker is spawned, for
      segment 2, fetching `bytes=c-<end of segment 2>`, and `count` starts
      at the other three segments' lengths plus `c - start`. */
  lemma PartialResume(L: nat, c: nat)
    requires 4 <= L && IsU64(L) && IsI64(c)
    requires Start(L, 4, 2) <= c <= Limit(L, 4, 2)
    ensures var st := [SENTINEL, SENTINEL, c, SENTINEL];
      && IsRecord(st) && Plannable(L, 4, Some(st))
      && Pending(L, 4, Some(st), 4) == [Assignment(2, c)]
      && ResumedCount(L, 4, st, 4) == Credit(L, 4, 0) + Credit(L, 4, 1) + Credit(L, 4, 3) + (c - Start(L, 4, 2))
      && Worker.RequestRange(Worker.Segment(2, 4, L), c) == ByteRange(c, Some(Limit(L, 4, 2) - 1))
  {
    var st := [SENTINEL, SENTINEL, c, SENTINEL];
    assert InSegments(L, 4, st);
    SafeRecordPlans(L, 4, st);
    assert Worker.EndComputable(Worker.Segment(2, 4, L));
    assert Pending(L, 4, Some(st), 1) == [];
    assert Pending(L, 4, Some(st), 2) == [];
    assert Pending(L, 4, Some(st), 3) == [Assignment(2, c)];
    assert ResumedCount(L, 4, st, 1) == Credit(L, 4, 0);
    assert ResumedCount(L, 4, st, 2) == Credit(L, 4, 0) + Credit(L, 4, 1);
    assert ResumedCount(L, 4, st, 3) == Credit(L, 4, 0) + Credit(L, 4, 1) + (c - Start(L, 4, 2));
  }

  /** The cursor map a fresh run starts with in the source: every entry
      zero, whatever the segment's start. */
  function FreshCursorsAsWritten(t: nat): (m: seq<int>)
    ensures |m| == t && forall n :: 0 <= n < t ==> m[n] == 0
  {
    seq(t, _ => 0)
  }

  /** The zero-filled map breaks resumption. For `L = 10, t = 3`, once
      segment 0 has been downloaded in full (three bytes, one response),
      its worker persists the record `[-1, 0, 0]`; re-planning from that
      record computes `0 - 3` for segment 1, which panics. */
  lemma AsWrittenResumePanics(b0: byte, b1: byte, b2: byte)
    ensures var seg := Worker.Segment(0, 3, 10);
      var w := Worker.Spawn(seg, 0, 0, FreshCursorsAsWritten(3)[0], map[]);
      var r := Worker.Run(w, Worker.Chunks([[b0, b1, b2]]) + [Worker.End]);
      var record := FreshCursorsAsWritten(3)[0 := r.cursor];
      && r.phase == Worker.Complete
      && record == [SENTINEL, 0, 0]
      && IsRecord(record)
      && ResumableUpTo(10, 3, record, 1)
      && !Resumable(10, 3, 1, record[1])
      && !Plannable(10, 3, Some(record))
  {
    var zeros := FreshCursorsAsWritten(3);
    var w := Worker.Spawn(Worker.Segment(0, 3, 10), 0, 0, zeros[0], map[]);
    var r := Worker.Run(w, Worker.Chunks([[b0, b1, b2]]) + [Worker.End]);
    SegmentZeroCompletes(b0, b1, b2, zeros[0]);
    ZerosAfterSentinel(zeros, r.cursor);
    ZeroRecordStuck();
  }

  lemma ZerosAfterSentinel(zeros: seq<int>, c: int)
    requires zeros == FreshCursorsAsWritten(3) && c == SENTINEL
    ensures zeros[0 := c] == [SENTINEL, 0, 0]
  {
  }

  /** The record `[-1, 0, 0]` passes segment 0 and stops at segment 1,
      whose cursor 0 lies before that segment's start. */
  lemma ZeroRecordStuck()
    ensures IsRecord([SENTINEL, 0, 0])
    ensures ResumableUpTo(10, 3, [SENTINEL, 0, 0], 1)
    ensures !Resumable(10, 3, 1, 0)
    ensures !Plannable(10, 3, Some([SENTINEL, 0, 0]))
  {
    StuckAt(10, 3, [SENTINEL, 0, 0], 1);
  }

  /** Segment 0 of `L = 10, t = 3` completes after one three-byte chunk,
      whatever its cursor-map entry was, and leaves the sentinel there. */
  lemma SegmentZeroCompletes(b0: byte, b1: byte, b2: byte, cursor: int)
    ensures var w := Worker.Spawn(Worker.Segment(0, 3, 10), 0, 0, cursor, map[]);
      var r := Worker.Run(w, Worker.Chunks([[b0, b1, b2]]) + [Worker.End]);
      r.phase == Worker.Complete && r.cursor == SENTINEL
  {
    var seg := Worker.Segment(0, 3, 10);
    assert Worker.EndComputable(seg);
    Worker.CleanDownload(Worker.Spawn(seg, 0, 0, cursor, map[]), [[b0, b1, b2]]);
  }

  /** The record `[-1, 3, 6]` plans two workers, at 3 and 6, and credits
      segment 0's three bytes. */
  lemma PlanAfterSegmentZero()
    ensures IsRecord([SENTINEL, 3, 6]) && Plannable(10, 3, Some([SENTINEL, 3, 6]))
    ensures ResumedCount(10, 3, [SENTINEL, 3, 6], 3) == 3
    ensures Pending(10, 3, Some([SENTINEL, 3, 6]), 3) == [Assignment(1, 3), Assignment(2, 6)]
  {
    var record := [SENTINEL, 3, 6];
    assert InSegments(10, 3, record);
    SafeRecordPlans(10, 3, record);
    assert Pending(10, 3, Some(record), 1) == [];
    assert Pending(10, 3, Some(record), 2) == [Assignment(1, 3)];
    assert ResumedCount(10, 3, record, 1) == 3;
    assert ResumedCount(10, 3, record, 2) == 3;
  }

  /** With the segment starts as the fresh map, the same interruption
      resumes cleanly: the record is `[-1, 3, 6]`, planning spawns workers
      for segments 1 and 2 at their starts and credits segment 0's three
      bytes. */
  lemma FreshResumeSucceeds(b0: byte, b1: byte, b2: byte)
    ensures var seg := Worker.Segment(0, 3, 10);
      var w := Worker.Spawn(seg, 0, 0, FreshCursors(10, 3)[0], map[]);
      var r := Worker.Run(w, Worker.Chunks([[b0, b1, b2]]) + [Worker.End]);
      var record := FreshCursors(10, 3)[0 := r.cursor];
      && r.phase == Worker.Complete
      && record == [SENTINEL, 3, 6]
      && IsRecord(record)
      && Plannable(10, 3, Some(record))
      && ResumedCount(10, 3, record, 3) == 3
      && Pending(10, 3, Some(record), 3) == [Assignment(1, 3), Assignment(2, 6)]
  {
    SegmentZeroCompletes(b0, b1, b2, FreshCursors(10, 3)[0]);
    assert FreshCursors(10, 3) == [0, 3, 6];
    PlanAfterSegmentZero();
  }

  /** In general the corrected fresh map is resumable at every point: a
      record made of completed segments and cursors inside their segments
      always plans, and starts `count` at the bytes it says are committed.
      A segment that has not flushed yet keeps its fresh entry, its start,
      which is a cursor inside the segment. */
  lemma FreshRecordsResume(L: nat, t: nat, st: seq<int>)
    requires 1 <= t && IsU64(L) && L < I64_LIMIT && |st| == t
    requires forall n :: 0 <= n < t ==>
      st[n] == SENTINEL || Start(L, t, n) <= st[n] <= Limit(L, t, n)
    ensures IsRecord(st) && Plannable(L, t, Some(st))
    ensures ResumedCount(L, t, st, t) == Committed(L, t, st, t) <= L
  {
    forall n | 0 <= n < t
      ensures Start(L, t, n) <= Limit(L, t, n) <= L
    {
      WithinFile(L, t, n);
    }
    assert IsRecord(st) by {
      forall n | 0 <= n < t
        ensures IsI64(st[n])
      {
        assert st[n] == SENTINEL || Start(L, t, n) <= st[n] <= L;
      }
    }
    assert InSegments(L, t, st) by {
      forall n | 0 <= n < t
        ensures st[n] == SENTINEL || Start(L, t, n) <= st[n] <= Limit(L, t, n)
      {
      }
    }
    SafeRecordPlans(L, t, st);
  }

  /** The as-written fresh map fails the same way for every split with at
      least two segments: any record still holding segment 1's initial
      zero cannot be planned. */
  lemma AsWrittenFreshEntryPanics(L: nat, t: nat, st: seq<int>)
    requires 2 <= t <= L && IsRecord(st) && 1 < |st|
    requires st[1] == FreshCursorsAsWritten(t)[1]
    ensures !Plannable(L, t, Some(st))
  {
    assert 1 <= L / t;
    StuckAt(L, t, st, 1);
  }
}

=== FILE: output.dfy ===
/** Where a download goes: the output path, the `.mget` resume-record path
    beside it, and the preallocation of the output file on a fresh run. The
    file is an offset-to-byte map, as in the worker model. */
module Output {
  import opened Basics
  import Segments
  import Worker

  const DEFAULT_OUTPUT: string := "output"
  const STATUS_SUFFIX: string := ".mget"

  /** The `-o` path, or `output` when none was given. */
  function OutputPath(o: Option<string>): (p: string)
    ensures o.Some? ==> p == o.value
    ensures o.None? ==> p == DEFAULT_OUTPUT
  {
    o.GetOr(DEFAULT_OUTPUT)
  }

  /** The resume record lives at the output path with `.mget` appended. */
  function StatusPath(p: string): (s: string)
    ensures |s| == |p| + |STATUS_SUFFIX|
    ensures s[..|p|] == p && s[|p|..] == STATUS_SUFFIX
  {
    p + STATUS_SUFFIX
  }

  /** Distinct outputs keep distinct resume records, and a resume record
      never overwrites its own output. */
  lemma StatusPathInjective(a: string, b: string)
    ensures StatusPath(a) == StatusPath(b) ==> a == b
    ensures StatusPath(a) != a
  {
    if StatusPath(a) == StatusPath(b) {
      assert a == StatusPath(a)[..|a|] == StatusPath(b)[..|b|] == b;
    }
  }

  /** On a fresh run (no cursor list) the output file is created or
      truncated and then extended to `L` zero bytes; a resumed run leaves
      the file as the earlier run left it. */
  function Prepare(status: Option<seq<int>>, L: nat, file: map<nat, byte>): (r: map<nat, byte>)
    ensures status.None? ==> r.Keys == Worker.Span(0, L)
    ensures status.None? ==> forall k :: k in r ==> r[k] == 0
    ensures status.Some? ==> r == file
  {
    if status.None? then
      var f := Worker.Write(map[], 0, seq(L, _ => 0 as byte));
      assert f.Keys == Worker.Span(0, L);
      f
    else file
  }

  /** Every offset any segment of a fresh run owns already exists in the
      prepared file, so the workers' writes only overwrite bytes. */
  lemma PreparedCoversSegments(L: nat, t: nat, file: map<nat, byte>)
    requires 1 <= t
    ensures var r := Prepare(None, L, file);
      forall n, k :: 0 <= n < t && Segments.Holds(L, t, n, k) ==> k in r
  {
    var r := Prepare(None, L, file);
    forall n, k | 0 <= n < t && Segments.Holds(L, t, n, k)
      ensures k in r
    {
      Segments.WithinFile(L, t, n);
    }
  }
}

=== FILE: planner.dfy ===
/** The planning loop at the head of `download`: for each of the `t`
    segments it decides, from the optional resume record (`status`), whether
    a worker is spawned, where that worker starts, what the segment's entry
    in the shared cursor map is, and how many bytes are credited to the
    shared `count` before any byte is fetched.

    Arithmetic is modelled with the checks of a debug build: a `u64`
    subtraction below zero or addition past 2^64 - 1 panics, and so does
    indexing past the end of the resume record. Each panic aborts the whole
    process, so it is an `Err` here. */
module Planner {
  import opened Basics
  import opened Segments

  datatype Panic =
    | IndexOutOfBounds(index: nat)   // `status[n]` with a record shorter than `t`
    | CursorBeforeStart(index: nat)  // `sr - should_sr` below zero
    | CountOverflow(index: nat)      // `*count += ...` past 2^64 - 1

  /** A worker to spawn: segment `index`, fetching from byte `start`. */
  datatype Assignment = Assignment(index: nat, start: nat)

  /** What planning leaves behind: the initial `count`, the cursor map and
      the workers spawned, in spawn order. */
  datatype Plan = Plan(count: nat, cursors: seq<int>, workers: seq<Assignment>)

  /** A resume record as the type system delivers it: a list of `i64`. */
  predicate IsRecord(st: seq<int>) {
    forall i :: 0 <= i < |st| ==> IsI64(st[i])
  }

  /** Cursor map of a fresh run: each segment's entry is its own start
      offset, so that a record persisted before the segment first flushes
      still resumes it from the right place. (The source fills the map with
      zeros instead; see `Job.FreshCursorsAsWritten`.) */
  function FreshCursors(L: nat, t: nat): (m: seq<int>)
    ensures |m| == t
    ensures forall n :: 0 <= n < t ==> m[n] == Start(L, t, n)
  {
    if t == 0 then [] else seq(t, n requires 0 <= n < t => Start(L, t, n))
  }

  /** Resume cursor `c` for segment `n` passes the loop: either the sentinel
      or, once cast to `u64`, not before the segment's start. */
  predicate Resumable(L: nat, t: nat, n: nat, c: int)
    requires 1 <= t && n < t && IsI64(c)
  {
    c == SENTINEL || Start(L, t, n) <= I64ToU64(c)
  }

  /** Bytes segment `n` credits to `count` when resumed from cursor `c`:
      its whole length for the sentinel, the bytes before the cursor
      otherwise. */
  function SegmentCredit(L: nat, t: nat, n: nat, c: int): nat
    requires 1 <= t && n < t && IsI64(c) && Resumable(L, t, n, c)
  {
    if c == SENTINEL then Credit(L, t, n) else I64ToU64(c) - Start(L, t, n)
  }

  /** The first `k` entries of the record all pass the loop. */
  predicate ResumableUpTo(L: nat, t: nat, st: seq<int>, k: nat)
    requires IsRecord(st)
  {
    && k <= t
    && k <= |st|
    && forall n :: 0 <= n < k ==> Resumable(L, t, n, st[n])
  }

  /** `count` after the loop has handled segments `0 .. k-1` of a resume. */
  function ResumedCount(L: nat, t: nat, st: seq<int>, k: nat): nat
    requires IsRecord(st) && ResumableUpTo(L, t, st, k)
  {
    if k == 0 then 0 else ResumedCount(L, t, st, k - 1) + SegmentCredit(L, t, k - 1, st[k - 1])
  }

  /** Where the worker of segment `n` starts, or `None` when no worker is
      spawned for it because the record marks it complete. */
  function Resumed(L: nat, t: nat, status: Option<seq<int>>, n: nat): Option<nat>
    requires 1 <= t && n < t
    requires status.Some? ==> IsRecord(status.value) && n < |status.value|
  {
    match status
    case None => Some(Start(L, t, n))
    case Some(st) => if st[n] == SENTINEL then None else Some(I64ToU64(st[n]))
  }

  /** The workers spawned for segments `0 .. k-1`, in spawn order. */
  function Pending(L: nat, t: nat, status: Option<seq<int>>, k: nat): seq<Assignment>
    requires k <= t
    requires status.Some? ==> IsRecord(status.value) && k <= |status.value|
  {
    if k == 0 then []
    else
      Pending(L, t, status, k - 1)
      + match Resumed(L, t, status, k - 1)
        case None => []
        case Some(sr) => [Assignment(k - 1, sr)]
  }

  /** Every worker `Pending` lists is for a segment that gets one, starting
      where `Resumed` says, and the list is in increasing segment order. */
  lemma {:induction false} PendingSound(L: nat, t: nat, status: Option<seq<int>>, k: nat)
    requires k <= t
    requires status.Some? ==> IsRecord(status.value) && k <= |status.value|
    ensures forall i :: 0 <= i < |Pending(L, t, status, k)| ==>
      && Pending(L, t, status, k)[i].index < k
      && Resumed(L, t, status, Pending(L, t, status, k)[i].index) == Some(Pending(L, t, status, k)[i].start)
    ensures forall i, j :: 0 <= i < j < |Pending(L, t, status, k)| ==>
      Pending(L, t, status, k)[i].index < Pending(L, t, status, k)[j].index
  {
    if k > 0 {
      PendingSound(L, t, status, k - 1);
      var P0 := Pending(L, t, status, k - 1);
      var P := Pending(L, t, status, k);
      assert P[..|P0|] == P0;
      assert forall i :: 0 <= i < |P0| ==> P[i] == P0[i];
    }
  }

  /** Every segment that gets a worker appears in `Pending`. */
  lemma {:induction false} PendingComplete(L: nat, t: nat, status: Option<seq<int>>, k: nat, n: nat)
    requires k <= t
    requires status.Some? ==> IsRecord(status.value) && k <= |status.value|
    requires n < k && Resumed(L, t, status, n).Some?
    ensures exists i :: 0 <= i < |Pending(L, t, status, k)| && Pending(L, t, status, k)[i].index == n
  {
    var P0 := Pending(L, t, status, k - 1);
    var P := Pending(L, t, status, k);
    assert P[..|P0|] == P0;
    if n < k - 1 {
      PendingComplete(L, t, status, k - 1, n);
      var i :| 0 <= i < |P0| && P0[i].index == n;
      assert P[i] == P0[i];
    } else {
      assert P[|P| - 1].index == n;
    }
  }

  /** The resume loop gets through all `t` segments without panicking. */
  predicate Plannable(L: nat, t: nat, status: Option<seq<int>>)
    requires status.Some? ==> IsRecord(status.value)
  {
    status.Some? ==>
      ResumableUpTo(L, t, status.value, t) && ResumedCount(L, t, status.value, t) <= U64_MAX
  }

  /** One more entry passing extends the prefix, and its credit extends
      the running count. */
  lemma ExtendResumable(L: nat, t: nat, st: seq<int>, n: nat)
    requires IsRecord(st) && ResumableUpTo(L, t, st, n)
    requires n < t && n < |st| && Resumable(L, t, n, st[n])
    ensures ResumableUpTo(L, t, st, n + 1)
    ensures ResumedCount(L, t, st, n + 1) == ResumedCount(L, t, st, n) + SegmentCredit(L, t, n, st[n])
  {
  }

  /** A record that is too short, or whose entry `n` fails, cannot be
      planned. */
  lemma StuckAt(L: nat, t: nat, st: seq<int>, n: nat)
    requires IsRecord(st) && n < t
    requires n >= |st| || !Resumable(L, t, n, st[n])
    ensures !ResumableUpTo(L, t, st, t)
  {
  }

  /** A count past 64 bits after `k` segments stays past it after all `t`. */
  lemma OverflowStuck(L: nat, t: nat, st: seq<int>, k: nat)
    requires IsRecord(st) && ResumableUpTo(L, t, st, k)
    requires ResumedCount(L, t, st, k) > U64_MAX
    ensures !Plannable(L, t, Some(st))
  {
    if ResumableUpTo(L, t, st, t) {
      ResumedCountMono(L, t, st, k, t);
    }
  }

  /** The planning loop's state after segments `0 .. n-1`: on a fresh run
      nothing is credited and the map holds the segment starts; on a resume
      the first `n` entries passed, the count is their credit, the map
      copies them; and the workers spawned so far are `Pending`'s. */
  predicate PlannedUpTo(L: nat, t: nat, status: Option<seq<int>>, n: nat, p: Plan)
    requires status.Some? ==> IsRecord(status.value)
  {
    && n <= t && |p.cursors| == t
    && (status.None? ==> p.count == 0 && p.cursors == FreshCursors(L, t))
    && (status.Some? ==>
          && ResumableUpTo(L, t, status.value, n)
          && p.count == ResumedCount(L, t, status.value, n) <= U64_MAX
          && p.cursors[..n] == status.value[..n])
    && (status.None? || n <= |status.value|)
    && p.workers == Pending(L, t, status, n)
  }

  /** What a panic at segment `n` says about the record: it is too short,
      entry `n` lies before its segment, or crediting entry `n` pushes the
      count past 64 bits; every earlier entry passed. */
  predicate Explains(L: nat, t: nat, status: Option<seq<int>>, e: Panic)
    requires status.Some? ==> IsRecord(status.value)
  {
    && status.Some?
    && e.index < t
    && match e
       case IndexOutOfBounds(n) =>
         n == |status.value| && ResumableUpTo(L, t, status.value, n)
       case CursorBeforeStart(n) =>
         && ResumableUpTo(L, t, status.value, n)
         && n < |status.value|
         && !Resumable(L, t, n, status.value[n])
       case CountOverflow(n) =>
         && ResumableUpTo(L, t, status.value, n + 1)
         && ResumedCount(L, t, status.value, n) <= U64_MAX
         && ResumedCount(L, t, status.value, n + 1) > U64_MAX
  }

  /** One pass of the planning loop, for segment `n`: spawn a worker at
      the segment start on a fresh run; on a resume, credit a completed
      segment and spawn nothing, or credit the bytes before the cursor and
      spawn a worker there, panicking on a short record, a cursor before
      the start or a count overflow. */
  method PlanSegment(L: nat, t: nat, status: Option<seq<int>>, n: nat, acc: Plan) returns (r: Result<Plan, Panic>)
    requires IsU64(L) && IsU64(t) && n < t
    requires status.Some? ==> IsRecord(status.value)
    requires PlannedUpTo(L, t, status, n, acc)
    ensures r.Ok? ==> PlannedUpTo(L, t, status, n + 1, r.value)
    ensures r.Err? ==> r.error.index == n && Explains(L, t, status, r.error) && !Plannable(L, t, status)
  {
    if status.None? {
      FreshStep(L, t, n, acc);
      return Ok(acc.(workers := acc.workers + [Assignment(n, n * (L / t))]));
    }
    var st := status.value;
    if n >= |st| {
      ShortRecord(L, t, st, n, acc);
      return Err(IndexOutOfBounds(n));
    }
    if st[n] == SENTINEL {
      r := ResumeComplete(L, t, st, n, acc);
    } else {
      r := ResumeFrom(L, t, st, n, acc);
    }
  }

  /** On a fresh run segment `n` gets a worker at its start and nothing
      else changes. */
  lemma FreshStep(L: nat, t: nat, n: nat, acc: Plan)
    requires n < t && PlannedUpTo(L, t, None, n, acc)
    ensures PlannedUpTo(L, t, None, n + 1, acc.(workers := acc.workers + [Assignment(n, n * (L / t))]))
  {
  }

  /** A record without an entry for segment `n` panics there. */
  lemma ShortRecord(L: nat, t: nat, st: seq<int>, n: nat, acc: Plan)
    requires n < t && IsRecord(st) && n >= |st| && PlannedUpTo(L, t, Some(st), n, acc)
    ensures Explains(L, t, Some(st), IndexOutOfBounds(n)) && !Plannable(L, t, Some(st))
  {
    StuckAt(L, t, st, n);
  }

  /** Segment `n` of a resume marked complete: credit its whole length,
      keep the sentinel in the map, spawn nothing. */
  method ResumeComplete(L: nat, t: nat, st: seq<int>, n: nat, acc: Plan) returns (r: Result<Plan, Panic>)
    requires IsU64(L) && n < t && IsRecord(st) && n < |st| && st[n] == SENTINEL
    requires PlannedUpTo(L, t, Some(st), n, acc)
    ensures r.Ok? ==> PlannedUpTo(L, t, Some(st), n + 1, r.value)
    ensures r.Err? ==> r.error == CountOverflow(n) && Explains(L, t, Some(st), r.error) && !Plannable(L, t, Some(st))
  {
    ExtendResumable(L, t, st, n);
    var credit := if n + 1 < t then L / t else L - L / t * n;
    if acc.count + credit > U64_MAX {
      OverflowStuck(L, t, st, n + 1);
      return Err(CountOverflow(n));
    }
    var cursors := acc.cursors[n := SENTINEL];
    assert cursors[..n + 1] == cursors[..n] + [SENTINEL];
    assert st[..n + 1] == st[..n] + [st[n]];
    return Ok(acc.(count := acc.count + credit, cursors := cursors));
  }

  /** Segment `n` of a resume with cursor `st[n]`: cast it to `u64`, store
      it back in the map, credit the bytes before it and spawn a worker
      there; a cursor before the segment's start underflows. */
  method ResumeFrom(L: nat, t: nat, st: seq<int>, n: nat, acc: Plan) returns (r: Result<Plan, Panic>)
    requires IsU64(L) && n < t && IsRecord(st) && n < |st| && st[n] != SENTINEL
    requires PlannedUpTo(L, t, Some(st), n, acc)
    ensures r.Ok? ==> PlannedUpTo(L, t, Some(st), n + 1, r.value)
    ensures r.Err? ==> r.error.index == n && Explains(L, t, Some(st), r.error) && !Plannable(L, t, Some(st))
  {
    var shouldSr := n * (L / t);
    var sr := I64ToU64(st[n]);
    var cursors := acc.cursors[n := U64ToI64(sr)];
    CastRoundTrip(st[n]);
    assert cursors[..n + 1] == cursors[..n] + [st[n]];
    assert st[..n + 1] == st[..n] + [st[n]];
    if sr < shouldSr {
      StuckAt(L, t, st, n);
      return Err(CursorBeforeStart(n));
    }
    ExtendResumable(L, t, st, n);
    if acc.count + (sr - shouldSr) > U64_MAX {
      OverflowStuck(L, t, st, n + 1);
      return Err(CountOverflow(n));
    }
    return Ok(Plan(acc.count + (sr - shouldSr), cursors, acc.workers + [Assignment(n, sr)]));
  }

  /** The planning loop (`for n in 0..t`). On success the count is the sum
      of the per-segment credits, the cursor map is the record (or the
      segment starts on a fresh run), and one worker is spawned per segment
      not marked complete. On failure the panic names the first segment at
      which the loop stops, and why. */
  method PlanDownload(L: nat, t: nat, status: Option<seq<int>>) returns (r: Result<Plan, Panic>)
    requires IsU64(L) && IsU64(t)
    requires status.Some? ==> IsRecord(status.value)
    ensures r.Ok? <==> Plannable(L, t, status)
    ensures r.Ok? ==> var p := r.value;
      && |p.cursors| == t
      && p.workers == Pending(L, t, status, t)
      && (status.None? ==> p.count == 0 && p.cursors == FreshCursors(L, t))
      && (status.Some? ==>
            && p.count == ResumedCount(L, t, status.value, t)
            && p.cursors == status.value[..t])
    ensures r.Err? ==> Explains(L, t, status, r.error)
  {
    var acc := Plan(0, FreshCursors(L, t), []);
    var n: nat := 0;
    while n < t
      invariant PlannedUpTo(L, t, status, n, acc)
    {
      var step := PlanSegment(L, t, status, n, acc);
      if step.Err? {
        return Err(step.error);
      }
      acc := step.value;
      n := n + 1;
    }
    if status.Some? {
      assert acc.cursors == acc.cursors[..t];
    }
    return Ok(acc);
  }

  /** Once the first `k` entries pass, the running count only grows:
      partial sums are monotone, so a total within 64 bits means every
      intermediate count was too. */
  lemma {:induction false} ResumedCountMono(L: nat, t: nat, st: seq<int>, j: nat, k: nat)
    requires IsRecord(st) && ResumableUpTo(L, t, st, k) && j <= k
    ensures ResumedCount(L, t, st, j) <= ResumedCount(L, t, st, k)
    decreases k
  {
    if j < k {
      ResumedCountMono(L, t, st, j, k - 1);
    }
  }
}

=== FILE: probe.dfy ===
/** The HEAD probe that opens a download (`mget`): the response's
    `Accept-Ranges` and `Content-Length` header values, as raw text, decide
    whether the download starts and how long the resource is. The HTTP
    exchange itself is an input: `None` when the request failed. */
module Probe {
  import opened Basics
  import opened Decimal

  /** The two header values the probe reads, when present. */
  datatype Head = Head(acceptRanges: Option<string>, contentLength: Option<string>)

  /** What the probe decides. The first two end the run normally, the third
      ends it with an error, and only the last starts a download. */
  datatype Verdict =
    | HeadFailed
    | NoContentLength
    | BadContentLength(text: string)
    | Fetch(length: nat)

  /** The verdict, plus whether the missing-`Accept-Ranges` warning is
      printed. The warning changes nothing else. */
  datatype Probed = Probed(rangesWarning: bool, verdict: Verdict)

  /** `HeaderValue::to_str` succeeds only on tab and visible ASCII. */
  predicate VisibleAscii(s: string) {
    forall i :: 0 <= i < |s| ==> s[i] == '\t' || (' ' <= s[i] <= '~')
  }

  /** The length a `Content-Length` value gives, or `None` when reading it
      fails (non-visible characters, or not a 64-bit decimal). */
  function ContentLength(text: string): (r: Option<nat>)
    ensures r.Some? ==> IsU64(r.value)
    ensures !VisibleAscii(text) ==> r.None?
  {
    if VisibleAscii(text) then ParseU64(text) else None
  }

  /** The probe: a failed request ends the run, a missing
      `Content-Length` ends it after its message, an unreadable one is an
      error, and otherwise the download starts with that length. */
  function ProbeResource(response: Option<Head>): (p: Probed)
    ensures response.None? ==> p == Probed(false, HeadFailed)
    ensures p.verdict.Fetch? ==> IsU64(p.verdict.length)
    ensures p.verdict.Fetch? <==> response.Some? && response.value.contentLength.Some?
                                  && ContentLength(response.value.contentLength.value).Some?
  {
    match response
    case None => Probed(false, HeadFailed)
    case Some(h) =>
      var warn := h.acceptRanges.None?;
      match h.contentLength
      case None => Probed(warn, NoContentLength)
      case Some(text) =>
        match ContentLength(text)
        case None => Probed(warn, BadContentLength(text))
        case Some(n) => Probed(warn, Fetch(n))
  }

  /** A missing `Accept-Ranges` only prints the warning: the verdict is
      the same whatever that header says, and the warning appears exactly
      when the header is missing from an answered probe. */
  lemma AcceptRangesOnlyWarns(a1: Option<string>, a2: Option<string>, c: Option<string>)
    ensures ProbeResource(Some(Head(a1, c))).verdict == ProbeResource(Some(Head(a2, c))).verdict
    ensures ProbeResource(Some(Head(a1, c))).rangesWarning <==> a1.None?
  {
  }

  /** A server advertising the decimal length of the resource starts a
      download of exactly that length. */
  lemma AdvertisedLength(L: nat, a: Option<string>)
    requires IsU64(L)
    ensures ProbeResource(Some(Head(a, Some(Show(L))))).verdict == Fetch(L)
  {
    ParseU64OfShow(L);
    var s := Show(L);
    assert AllDigits(s);
    assert VisibleAscii(s) by {
      forall i | 0 <= i < |s| ensures ' ' <= s[i] <= '~' {
        assert IsDigit(s[i]);
      }
    }
  }

  /** A length that does not fit in 64 bits is an error, not a wrapped
      download. */
  lemma OverlongLength(L: nat, a: Option<string>)
    requires !IsU64(L)
    ensures ProbeResource(Some(Head(a, Some(Show(L))))).verdict == BadContentLength(Show(L))
  {
    ParseU64RejectsOverflow(L);
  }
}

=== FILE: range_header.dfy ===
/** The `Range` request header a segment worker sends: the byte-range form
    `bytes=first-last` or the open-ended `bytes=first-` of section 14.1.2 of
    RFC 9110 (`int-range = first-pos "-" [ last-pos ]`). */
module RangeHeader {
  import opened Basics
  import opened Decimal

  /** A single byte range: first offset and, unless open-ended, the
      inclusive last offset. */
  datatype ByteRange = ByteRange(first: nat, last: Option<nat>)

  /** `bytes={first}-{last}` or `bytes={first}-`. */
  function Render(r: ByteRange): (s: string)
    ensures |s| > 7 && s[..6] == "bytes="
    ensures r.last.None? ==> s[|s| - 1] == '-'
    ensures r.last.Some? ==> IsDigit(s[|s| - 1])
  {
    "bytes=" + Show(r.first) + "-" + (match r.last case Some(l) => Show(l) case None => "")
  }

  /** Position of the first `-` in `s`, or `|s|` when there is none. */
  function DashAt(s: string): (i: nat)
    ensures i <= |s|
    ensures i < |s| ==> s[i] == '-'
    ensures forall j :: 0 <= j < i ==> s[j] != '-'
  {
    if |s| == 0 then 0 else if s[0] == '-' then 0 else 1 + DashAt(s[1..])
  }

  /** Reads a header value of the `bytes` unit back. */
  function Parse(s: string): (r: Option<ByteRange>)
    ensures r.Some? ==> 6 <= |s| && s[..6] == "bytes="
  {
    if |s| < 6 || s[..6] != "bytes=" then None else ParseRange(s[6..])
  }

  /** Reads a single `int-range`: digits, a dash, and optional digits. */
  function ParseRange(spec: string): (r: Option<ByteRange>)
    ensures r.Some? ==> DashAt(spec) < |spec| && 1 <= DashAt(spec)
  {
    var d := DashAt(spec);
    var first := spec[..d];
    var rest := if d < |spec| then spec[d + 1..] else "";
    if d == |spec| || |first| == 0 || !AllDigits(first) || !AllDigits(rest) then None
    else if |rest| == 0 then Some(ByteRange(Value(first), None))
    else Some(ByteRange(Value(first), Some(Value(rest))))
  }

  lemma DashAfterDigits(a: string, b: string)
    requires AllDigits(a)
    ensures DashAt(a + "-" + b) == |a|
  {
    var s := a + "-" + b;
    assert s[|a|] == '-';
    assert forall j :: 0 <= j < |a| ==> s[j] == a[j] && IsDigit(a[j]);
  }

  /** The parser splits `bytes=` + digits + `-` + digits at the dash. */
  lemma ParseSplit(a: string, tail: string)
    requires 1 <= |a| && AllDigits(a) && AllDigits(tail)
    ensures Parse("bytes=" + a + "-" + tail)
      == Some(ByteRange(Value(a), if |tail| == 0 then None else Some(Value(tail))))
  {
    assert "bytes=" + a + "-" + tail == "bytes=" + (a + "-" + tail);
    ParsePrefixed(a + "-" + tail);
    RangeSplit(a, tail);
  }

  lemma ParsePrefixed(spec: string)
    ensures Parse("bytes=" + spec) == ParseRange(spec)
  {
    assert ("bytes=" + spec)[..6] == "bytes=";
    assert ("bytes=" + spec)[6..] == spec;
  }

  lemma RangeSplit(a: string, tail: string)
    requires 1 <= |a| && AllDigits(a) && AllDigits(tail)
    ensures ParseRange(a + "-" + tail)
      == Some(ByteRange(Value(a), if |tail| == 0 then None else Some(Value(tail))))
  {
    var spec := a + "-" + tail;
    DashAfterDigits(a, tail);
    assert spec[..|a|] == a;
    assert spec[|a| + 1..] == tail;
  }

  /** Parsing a rendered header gives back the range it was rendered from. */
  lemma ParseRender(r: ByteRange)
    ensures Parse(Render(r)) == Some(r)
  {
    ValueOfShow(r.first);
    match r.last {
      case Some(l) =>
        ValueOfShow(l);
        ParseSplit(Show(r.first), Show(l));
      case None =>
        ParseSplit(Show(r.first), "");
        assert Render(r) == "bytes=" + Show(r.first) + "-" + "";
    }
  }

  /** Distinct ranges render to distinct headers. */
  lemma RenderInjective(a: ByteRange, b: ByteRange)
    requires Render(a) == Render(b)
    ensures a == b
  {
    ParseRender(a);
    ParseRender(b);
  }
}

=== FILE: segments.dfy ===
/** Geometry of the segment split: segment `n` of `t` over a resource of
    `L` bytes starts at `n * (L / t)`; every segment but the last ends just
    before the next one starts, and the last runs to `L - 1`, absorbing the
    remainder of the integer division. */
module Segments {

  /** First byte offset of segment `n` (`should_sr`). */
  function Start(L: nat, t: nat, n: nat): nat
    requires 1 <= t
  {
    n * (L / t)
  }

  /** Whether segment `n` is the last, open-ended one (the source tests
      `n + 1 < t` for the bounded ones). */
  predicate IsLast(t: nat, n: nat) {
    n + 1 == t
  }

  /** One past the last byte offset of segment `n`. */
  function Limit(L: nat, t: nat, n: nat): nat
    requires 1 <= t && n < t
  {
    if n + 1 < t then (n + 1) * (L / t) else L
  }

  /** Whether byte `b` falls inside segment `n`. */
  predicate Holds(L: nat, t: nat, n: nat, b: nat)
    requires 1 <= t && n < t
  {
    Start(L, t, n) <= b < Limit(L, t, n)
  }

  /** The bytes a completed segment credits to the progress counter. */
  function Credit(L: nat, t: nat, n: nat): (c: nat)
    requires 1 <= t && n < t
    ensures Start(L, t, n) + c == Limit(L, t, n)
  {
    MulMono(L / t, n, t);
    if n + 1 < t then L / t else L - L / t * n
  }

  lemma MulMono(a: nat, m: nat, k: nat)
    requires m <= k
    ensures a * m <= a * k
  {
  }

  /** Segment starts never decrease with the index. */
  lemma StartMono(L: nat, t: nat, m: nat, n: nat)
    requires 1 <= t && m <= n
    ensures Start(L, t, m) <= Start(L, t, n)
  {
    MulMono(L / t, m, n);
  }

  lemma QuotientBound(L: nat, t: nat)
    requires 1 <= t
    ensures (L / t) * t <= L
    ensures L < (L / t) * t + t
  {
  }

  /** Segments are laid end to end: each one ends where the next begins,
      the first begins at 0 and the last ends at `L`. */
  lemma Contiguous(L: nat, t: nat)
    requires 1 <= t
    ensures Start(L, t, 0) == 0
    ensures Limit(L, t, t - 1) == L
    ensures forall n :: 0 <= n < t - 1 ==> Limit(L, t, n) == Start(L, t, n + 1)
  {
  }

  /** With `1 <= t <= L` every segment holds at least one byte, and only the
      last can be longer than `L / t`. */
  lemma NonEmpty(L: nat, t: nat, n: nat)
    requires 1 <= t <= L && n < t
    ensures Start(L, t, n) < Limit(L, t, n)
    ensures n + 1 < t ==> Credit(L, t, n) == L / t
    ensures IsLast(t, n) ==> L / t <= Credit(L, t, n) < L / t + t
  {
    assert 1 <= L / t;
    if IsLast(t, n) {
      QuotientBound(L, t);
      assert Start(L, t, n) + L / t == (L / t) * t;
    }
  }

  /** Owner of byte `b`: the segment its offset divides into, with every
      byte past the last full stride belonging to the last segment. */
  function Owner(L: nat, t: nat, b: nat): (n: nat)
    requires 1 <= t <= L && b < L
    ensures n < t && Holds(L, t, n, b)
  {
    var q := L / t;
    var n := if b / q < t - 1 then b / q else t - 1;
    OwnerBounds(L, t, b, n);
    n
  }

  lemma OwnerBounds(L: nat, t: nat, b: nat, n: nat)
    requires 1 <= t <= L && b < L
    requires n == if b / (L / t) < t - 1 then b / (L / t) else t - 1
    ensures Holds(L, t, n, b)
  {
    var q := L / t;
    var d := b / q;
    assert 1 <= q by {
      QuotientBound(L, t);
    }
    assert d * q <= b < d * q + q by {
      DivBounds(b, q);
    }
    if d < t - 1 {
      assert Start(L, t, n) == d * q;
      assert Limit(L, t, n) == (d + 1) * q == d * q + q;
    } else {
      MulMono(q, t - 1, d);
      assert Start(L, t, n) == (t - 1) * q <= d * q;
    }
  }

  lemma DivBounds(b: nat, q: nat)
    requires 1 <= q
    ensures (b / q) * q <= b < (b / q) * q + q
  {
  }

  /** Every segment lies within the file, even when `t > L` leaves
      segments empty. */
  lemma WithinFile(L: nat, t: nat, n: nat)
    requires 1 <= t && n < t
    ensures Start(L, t, n) <= Limit(L, t, n) <= L
  {
    QuotientBound(L, t);
    MulMono(L / t, n + 1, t);
  }

  /** Segments are pairwise disjoint: a byte inside segment `n` is owned by
      `n` and by nothing else. Together with `Owner` this says the segments
      partition `[0, L)` exactly. */
  lemma {:induction false} Disjoint(L: nat, t: nat, m: nat, n: nat, b: nat)
    requires 1 <= t <= L && m < t && n < t && b < L
    requires Holds(L, t, m, b) && Holds(L, t, n, b)
    ensures m == n
  {
    if m < n {
      assert Limit(L, t, m) == Start(L, t, m + 1);
      StartMono(L, t, m + 1, n);
    } else if n < m {
      assert Limit(L, t, n) == Start(L, t, n + 1);
      StartMono(L, t, n + 1, m);
    }
  }

  /** The partition in one statement: byte `b` lies in segment `n` exactly
      when `n` is its owner. */
  lemma HoldsIffOwner(L: nat, t: nat, n: nat, b: nat)
    requires 1 <= t <= L && n < t && b < L
    ensures Holds(L, t, n, b) <==> n == Owner(L, t, b)
  {
    if Holds(L, t, n, b) {
      Disjoint(L, t, n, Owner(L, t, b), b);
    }
  }

  /** Sum of the credits of the first `k` segments. */
  function CreditSum(L: nat, t: nat, k: nat): nat
    requires 1 <= t && k <= t
  {
    if k == 0 then 0 else CreditSum(L, t, k - 1) + Credit(L, t, k - 1)
  }

  /** The first `k` credits add up to where segment `k` starts, and all `t`
      of them add up to `L`: crediting every sentinel segment accounts for
      the whole file exactly once. */
  lemma {:induction false} CreditSumIsPrefix(L: nat, t: nat, k: nat)
    requires 1 <= t && k <= t
    ensures k < t ==> CreditSum(L, t, k) == Start(L, t, k)
    ensures k == t ==> CreditSum(L, t, k) == L
  {
    if k > 0 {
      CreditSumIsPrefix(L, t, k - 1);
    }
  }

  /** Two worked splits: `L = 10, t = 3` gives `[0,2] [3,5] [6,9]`, and
      `L = 1000, t = 3` gives `[0,332] [333,665] [666,999]`. */
  lemma Examples()
    ensures Start(10, 3, 0) == 0 && Limit(10, 3, 0) - 1 == 2
    ensures Start(10, 3, 1) == 3 && Limit(10, 3, 1) - 1 == 5
    ensures Start(10, 3, 2) == 6 && Limit(10, 3, 2) - 1 == 9
    ensures Start(1000, 3, 0) == 0 && Limit(1000, 3, 0) - 1 == 332
    ensures Start(1000, 3, 1) == 333 && Limit(1000, 3, 1) - 1 == 665
    ensures Start(1000, 3, 2) == 666 && Limit(1000, 3, 2) - 1 == 999
  {
  }
}

=== FILE: worker.dfy ===
/** One segment worker (the task spawned per segment in `download`), as a
    step function over the events its HTTP exchange delivers.

    The worker sends a ranged GET from its cursor `sr`, seeks its file
    handle to `sr`, and reads the body chunk by chunk into a buffer of fixed
    capacity. A chunk that would overflow the buffer first flushes it
    (`write_to_file`): the bytes go to the file at the handle's position, and
    `sr` and the shared `count` advance by the buffer's length, after which
    the segment's cursor-map entry is set to `sr`. At end of stream the rest
    of the buffer is flushed and the entry becomes the sentinel `-1`. On a
    stream error the buffer is dropped and a new request goes out from the
    current `sr`.

    The shared `count` is modelled as this worker's view of it: the adds of
    other workers commute with this worker's and are left out. */
module Worker {
  import opened Basics
  import opened Segments
  import opened RangeHeader

  /** The buffer's capacity (`Vec::with_capacity(256 * 1024)`), held fixed. */
  const CAPACITY: nat := 256 * 1024

  /** What the network hands the worker next: a body chunk, the end of the
      body, a failure while reading the body, or the refusal of the request
      just sent. */
  datatype Event = Chunk(data: seq<byte>) | End | Error | Refused

  /** `Requesting`: about to send a request (at the head of the outer
      loop). `Streaming`: reading a response body. `Complete` and
      `Panicked` are terminal. */
  datatype Phase = Requesting | Streaming | Complete | Panicked

  /** Segment `n` of `t` over a resource of `L` bytes. */
  datatype Segment = Segment(n: nat, t: nat, L: nat)

  predicate ValidSegment(seg: Segment) {
    1 <= seg.t && seg.n < seg.t
  }

  /** Whether `(n + 1) * (L / t) - 1`, computed for every request, stays
      within `u64`; it does not when `L < t`. */
  predicate EndComputable(seg: Segment)
    requires ValidSegment(seg)
  {
    (seg.n + 1) * (seg.L / seg.t) >= 1
  }

  /** One past the last byte this segment is responsible for. */
  function SegmentLimit(seg: Segment): nat
    requires ValidSegment(seg)
  {
    Limit(seg.L, seg.t, seg.n)
  }

  /** The range a request from `sr` asks for: up to the segment's last byte,
      or open-ended for the last segment. */
  function RequestRange(seg: Segment, sr: nat): (r: ByteRange)
    requires ValidSegment(seg) && EndComputable(seg)
    ensures r.first == sr
    ensures r.last.None? <==> IsLast(seg.t, seg.n)
    ensures r.last.Some? ==> r.last.value + 1 == SegmentLimit(seg)
  {
    ByteRange(sr, if seg.n + 1 < seg.t then Some((seg.n + 1) * (seg.L / seg.t) - 1) else None)
  }

  datatype State = State(
    seg: Segment,
    phase: Phase,
    sr: nat,                  // next byte offset to fetch
    pos: nat,                 // position of the worker's file handle
    buffer: seq<byte>,        // bytes received but not yet written
    count: nat,               // the shared bytes-committed counter
    cursor: int,              // this segment's entry in the cursor map
    file: map<nat, byte>,     // the output file, offset to byte
    requests: seq<ByteRange>) // ranges requested so far, in order

  predicate Valid(w: State) {
    && ValidSegment(w.seg)
    && (w.phase == Streaming ==> w.pos == w.sr)
    && (w.phase == Requesting ==> w.buffer == [])
  }

  predicate Terminal(w: State) {
    w.phase == Complete || w.phase == Panicked
  }

  /** A freshly spawned worker of segment `seg`, starting at `sr` with the
      cursor-map entry the planner gave it. */
  function Spawn(seg: Segment, sr: nat, count: nat, cursor: int, file: map<nat, byte>): (w: State)
    requires ValidSegment(seg)
    ensures Valid(w) && w.phase == Requesting
  {
    State(seg, Requesting, sr, sr, [], count, cursor, file, [])
  }

  /** The offsets `at .. at + len - 1`. */
  function Span(at: nat, len: nat): (s: set<nat>)
    ensures forall k :: k in s <==> at <= k < at + len
    decreases len
  {
    if len == 0 then {} else Span(at, len - 1) + {at + len - 1}
  }

  /** `file` after writing `data` at offset `at`. */
  function Write(file: map<nat, byte>, at: nat, data: seq<byte>): (f: map<nat, byte>)
    ensures f.Keys == file.Keys + Span(at, |data|)
    ensures forall k :: at <= k < at + |data| ==> f[k] == data[k - at]
    ensures forall k :: k in file && !(at <= k < at + |data|) ==> f[k] == file[k]
  {
    map k | k in file.Keys + Span(at, |data|) :: if at <= k < at + |data| then data[k - at] else file[k]
  }

  /** Writing nothing leaves the file as it was. */
  lemma WriteEmpty(file: map<nat, byte>, at: nat)
    ensures Write(file, at, []) == file
  {
  }

  /** Two writes back to back are one write of the concatenation. */
  lemma WriteAppend(file: map<nat, byte>, at: nat, x: seq<byte>, y: seq<byte>)
    ensures Write(Write(file, at, x), at + |x|, y) == Write(file, at, x + y)
  {
    var lhs := Write(Write(file, at, x), at + |x|, y);
    var rhs := Write(file, at, x + y);
    assert Span(at, |x|) + Span(at + |x|, |y|) == Span(at, |x + y|);
    forall k | k in lhs
      ensures lhs[k] == rhs[k]
    {
      if at + |x| <= k < at + |x| + |y| {
        assert (x + y)[k - at] == y[k - at - |x|];
      } else if at <= k < at + |x| {
        assert (x + y)[k - at] == x[k - at];
      }
    }
  }

  /** `write_to_file`: write the buffer at the handle's position, advance
      the handle, `sr` and `count` by its length, and empty it. */
  function Flush(w: State): (r: State)
    ensures r.seg == w.seg && r.phase == w.phase && r.cursor == w.cursor && r.requests == w.requests
    ensures r.buffer == []
    ensures r.sr == w.sr + |w.buffer| && r.count == w.count + |w.buffer| && r.pos == w.pos + |w.buffer|
    ensures r.file == Write(w.file, w.pos, w.buffer)
  {
    w.(file := Write(w.file, w.pos, w.buffer),
       pos := w.pos + |w.buffer|,
       count := w.count + |w.buffer|,
       sr := w.sr + |w.buffer|,
       buffer := [])
  }

  /** Handling one event of an open response body. */
  function Receive(w: State, e: Event): (r: State)
    requires w.phase == Streaming
    ensures r.seg == w.seg && r.requests == w.requests
    ensures w.sr <= r.sr && r.count - w.count == r.sr - w.sr && r.pos - w.pos == r.sr - w.sr
    ensures e.Chunk? ==>
      && r.phase == Streaming
      && r.sr + |r.buffer| == w.sr + |w.buffer| + |e.data|
      && (r.buffer == w.buffer + e.data || (r.buffer == e.data && r.sr == w.sr + |w.buffer| && r.cursor == r.sr))
      && (|w.buffer| + |e.data| <= CAPACITY ==> r.buffer == w.buffer + e.data && r.sr == w.sr && r.cursor == w.cursor)
      && (CAPACITY < |w.buffer| + |e.data| ==> r.buffer == e.data && r.sr == w.sr + |w.buffer| && r.cursor == r.sr)
    ensures e.End? ==> r.phase == Complete && r.buffer == [] && r.sr == w.sr + |w.buffer| && r.cursor == SENTINEL
    ensures r.sr == w.sr ==> r.file == w.file
    ensures r.sr != w.sr ==> r.file == Write(w.file, w.pos, w.buffer)
    ensures e.Error? ==> r == w.(buffer := [], phase := Requesting)
    ensures e.Refused? ==> r == w
  {
    WriteEmpty(w.file, w.pos);
    match e
    case Chunk(d) =>
      var f := if CAPACITY < |w.buffer| + |d| then var g := Flush(w); g.(cursor := g.sr) else w;
      f.(buffer := f.buffer + d)
    case End =>
      var f := if |w.buffer| > 0 then Flush(w) else w;
      f.(cursor := SENTINEL, phase := Complete)
    case Error =>
      w.(buffer := [], phase := Requesting)
    case Refused =>
      // A body reader has no request to refuse: the event leaves the worker as it was.
      w
  }

  /** Sending a request from `sr` and seeking the file handle to `sr`, with
      a fresh, empty buffer. */
  function Open(w: State): (r: State)
    requires ValidSegment(w.seg) && EndComputable(w.seg)
    ensures Valid(r) && r.phase == Streaming
    ensures r.buffer == [] && r.sr == r.pos == w.sr
    ensures r.requests == w.requests + [RequestRange(w.seg, w.sr)]
  {
    w.(requests := w.requests + [RequestRange(w.seg, w.sr)], phase := Streaming, pos := w.sr, buffer := [])
  }

  /** One step of the worker. From `Requesting` the worker first computes
      the range end (panicking when it underflows), sends the request, and
      either panics on a refusal (the `expect` on `send`) or takes the event
      as the first answer of the new response body. */
  function Step(w: State, e: Event): (r: State)
    requires Valid(w)
    ensures Valid(r) && r.seg == w.seg
    ensures w.sr <= r.sr && r.count - w.count == r.sr - w.sr
    ensures Terminal(w) ==> r == w
    ensures r.phase == Complete && !Terminal(w) ==> r.cursor == SENTINEL && r.buffer == []
    ensures |r.requests| > |w.requests| ==>
      EndComputable(w.seg) && r.requests == w.requests + [RequestRange(w.seg, w.sr)]
    ensures |r.requests| <= |w.requests| ==> r.requests == w.requests
    ensures e.Chunk? && r.phase == Streaming ==> |r.buffer| <= CAPACITY || r.buffer == e.data
    ensures e.Error? && w.phase == Streaming ==>
      r.phase == Requesting && r.sr == w.sr && r.count == w.count && r.file == w.file
  {
    match w.phase
    case Complete => w
    case Panicked => w
    case Requesting =>
      if !EndComputable(w.seg) then w.(phase := Panicked)
      else
        if e.Refused? then w.(requests := w.requests + [RequestRange(w.seg, w.sr)], phase := Panicked)
        else Receive(Open(w), e)
    case Streaming => Receive(w, e)
  }

  /** The worker after a sequence of events. */
  function Run(w: State, es: seq<Event>): (r: State)
    requires Valid(w)
    ensures Valid(r) && r.seg == w.seg
    ensures w.sr <= r.sr && r.count - w.count == r.sr - w.sr
    ensures |w.requests| <= |r.requests| && r.requests[..|w.requests|] == w.requests
    decreases |es|
  {
    if es == [] then w else Run(Step(w, es[0]), es[1..])
  }

  /** What a run does to the file: it differs from the original only in
      the contiguous region `[sr0, sr)` the flushes covered. */
  lemma RunWritesContiguously(w: State, es: seq<Event>)
    requires Valid(w)
    ensures var r := Run(w, es);
      && r.file.Keys == w.file.Keys + Span(w.sr, r.sr - w.sr)
      && (forall k :: k in w.file && !(w.sr <= k < r.sr) ==> r.file[k] == w.file[k])
  {
    var r := Run(w, es);
    forall k | k in r.file.Keys || k in w.file.Keys + Span(w.sr, r.sr - w.sr)
      ensures k in r.file.Keys <==> k in w.file.Keys + Span(w.sr, r.sr - w.sr)
    {
      RunKeyAt(w, es, k);
    }
    forall k | k in w.file && !(w.sr <= k < r.sr)
      ensures r.file[k] == w.file[k]
    {
      RunKeepsOutside(w, es, k);
    }
  }

  /** An offset is in the file after a run exactly when it was before or
      the run flushed it. */
  lemma {:induction false} RunKeyAt(w: State, es: seq<Event>, k: nat)
    requires Valid(w)
    ensures k in Run(w, es).file <==> k in w.file || w.sr <= k < Run(w, es).sr
    decreases |es|
  {
    if es != [] {
      var s := Step(w, es[0]);
      RunFirst(w, es);
      StepWritesContiguously(w, es[0]);
      assert k in s.file <==> k in w.file || w.sr <= k < s.sr;
      RunKeyAt(s, es[1..], k);
    }
  }

  /** A byte outside the flushed region keeps its value through a run. */
  lemma {:induction false} RunKeepsOutside(w: State, es: seq<Event>, k: nat)
    requires Valid(w) && k in w.file && !(w.sr <= k < Run(w, es).sr)
    ensures k in Run(w, es).file && Run(w, es).file[k] == w.file[k]
    decreases |es|
  {
    if es != [] {
      var s := Step(w, es[0]);
      RunFirst(w, es);
      StepWritesContiguously(w, es[0]);
      assert k in s.file && s.file[k] == w.file[k];
      RunKeepsOutside(s, es[1..], k);
    }
  }

  /** What a run does to the requests: it only appends, and every request
      it sends starts at an `sr` reached along the way. */
  lemma {:induction false} RunRequests(w: State, es: seq<Event>)
    requires Valid(w)
    ensures var r := Run(w, es);
      && r.requests[..|w.requests|] == w.requests
      && (forall i :: |w.requests| <= i < |r.requests| ==> w.sr <= r.requests[i].first <= r.sr)
    decreases |es|
  {
    if es != [] {
      var s := Step(w, es[0]);
      RunRequests(s, es[1..]);
      var r := Run(s, es[1..]);
      assert r.requests[..|w.requests|] == s.requests[..|w.requests|];
      forall i | |w.requests| <= i < |r.requests|
        ensures w.sr <= r.requests[i].first <= r.sr
      {
        if i < |s.requests| {
          assert r.requests[i] == s.requests[i];
        }
      }
    }
  }

  /** One step writes only the contiguous region `[sr, sr')`. */
  lemma StepWritesContiguously(w: State, e: Event)
    requires Valid(w)
    ensures var r := Step(w, e);
      && r.file.Keys == w.file.Keys + Span(w.sr, r.sr - w.sr)
      && (forall k :: k in w.file && !(w.sr <= k < r.sr) ==> r.file[k] == w.file[k])
  {
  }

  /** After any run, a retry resumes where the flushed bytes end: if the
      next step sends a request, it asks for the segment's range from the
      starting cursor plus every byte flushed so far (the growth of
      `count`), never from the segment's original start. */
  lemma RetryResumesAfterFlushed(w: State, es: seq<Event>, e: Event)
    requires Valid(w)
    ensures var r := Run(w, es);
      var s := Step(r, e);
      |s.requests| > |r.requests| ==>
        s.requests[|s.requests| - 1] == RequestRange(w.seg, w.sr + (r.count - w.count))
  {
  }

  /** Chunks as body events. */
  function Chunks(cs: seq<seq<byte>>): (es: seq<Event>)
    ensures |es| == |cs|
    ensures forall i :: 0 <= i < |cs| ==> es[i] == Chunk(cs[i])
  {
    if cs == [] then [] else [Chunk(cs[0])] + Chunks(cs[1..])
  }

  /** All the bytes of a list of chunks, in order. */
  function Concat(cs: seq<seq<byte>>): seq<byte> {
    if cs == [] then [] else cs[0] + Concat(cs[1..])
  }

  /** A chunk on an open body: flush first if it would overflow the buffer,
      recording the new `sr` as the cursor, then append the chunk. */
  lemma ChunkStep(w: State, d: seq<byte>)
    requires Valid(w) && w.phase == Streaming
    ensures Step(w, Chunk(d))
      == if CAPACITY < |w.buffer| + |d| then Flush(w).(cursor := w.sr + |w.buffer|, buffer := d)
         else w.(buffer := w.buffer + d)
  {
  }

  /** The end of an open body: drain the buffer, then mark the segment
      complete. */
  lemma EndStep(w: State)
    requires Valid(w) && w.phase == Streaming
    ensures Step(w, End) == Flush(w).(cursor := SENTINEL, phase := Complete)
  {
    if |w.buffer| == 0 {
      WriteEmpty(w.file, w.pos);
    }
  }

  /** An open body that delivers chunks and then ends: everything buffered
      plus every chunk lands in the file at consecutive offsets from the
      handle's position, `sr` and `count` advance by exactly that many
      bytes, and the cursor becomes the sentinel. */
  lemma {:induction false} StreamToEnd(w: State, cs: seq<seq<byte>>)
    requires Valid(w) && w.phase == Streaming
    ensures Run(w, Chunks(cs) + [End])
      == Flush(w.(buffer := w.buffer + Concat(cs))).(cursor := SENTINEL, phase := Complete)
    decreases |cs|
  {
    var es := Chunks(cs) + [End];
    if cs == [] {
      assert es == [End];
      assert Run(w, es) == Step(w, End);
      EndStep(w);
    } else {
      var d := cs[0];
      var rest := Concat(cs[1..]);
      assert es[0] == Chunk(d) && es[1..] == Chunks(cs[1..]) + [End];
      var s := Step(w, Chunk(d));
      assert Run(w, es) == Run(s, es[1..]);
      StreamToEnd(s, cs[1..]);
      ChunkThenEnd(w, d, rest);
    }
  }

  /** A chunk followed by bytes `rest` and the end of the body drains the
      same bytes whether or not the chunk forced a flush on the way. */
  lemma ChunkThenEnd(w: State, d: seq<byte>, rest: seq<byte>)
    requires Valid(w) && w.phase == Streaming
    ensures var s := Step(w, Chunk(d));
      Flush(s.(buffer := s.buffer + rest)).(cursor := SENTINEL, phase := Complete)
      == Flush(w.(buffer := w.buffer + (d + rest))).(cursor := SENTINEL, phase := Complete)
  {
    ChunkStep(w, d);
    if CAPACITY < |w.buffer| + |d| {
      FlushTwice(w, w.sr + |w.buffer|, d + rest);
    } else {
      assert (w.buffer + d) + rest == w.buffer + (d + rest);
    }
  }

  /** Flushing twice writes what one flush of both buffers would. */
  lemma FlushTwice(w: State, c: int, x: seq<byte>)
    ensures Flush(Flush(w).(cursor := c, buffer := x)) == Flush(w.(buffer := w.buffer + x)).(cursor := c)
  {
    WriteAppend(w.file, w.pos, w.buffer, x);
  }

  /** An error-free exchange: a worker that sends its request, receives
      chunks `cs` and then the end of the body, writes exactly the
      concatenation of the chunks, in order, at consecutive offsets from its
      starting cursor; advances `sr` and `count` by their total length;
      leaves the sentinel in its cursor entry; and sends exactly one
      request, for its range from the starting cursor. Nothing else about
      the worker changes. */
  lemma CleanDownload(w: State, cs: seq<seq<byte>>)
    requires Valid(w) && w.phase == Requesting && EndComputable(w.seg)
    ensures var data := Concat(cs);
      Run(w, Chunks(cs) + [End])
      == w.(phase := Complete,
            sr := w.sr + |data|,
            pos := w.sr + |data|,
            buffer := [],
            count := w.count + |data|,
            cursor := SENTINEL,
            file := Write(w.file, w.sr, data),
            requests := w.requests + [RequestRange(w.seg, w.sr)])
  {
    StreamOpened(w, cs);
    DrainOpened(w, Concat(cs));
  }

  /** The clean exchange, up to the final drain: the request is sent and
      the chunks and the end arrive on an open body with an empty buffer. */
  lemma StreamOpened(w: State, cs: seq<seq<byte>>)
    requires Valid(w) && w.phase == Requesting && EndComputable(w.seg)
    ensures Run(w, Chunks(cs) + [End])
      == Flush(Open(w).(buffer := Concat(cs))).(cursor := SENTINEL, phase := Complete)
  {
    var es := Chunks(cs) + [End];
    assert es[0] == if cs == [] then End else Chunk(cs[0]);
    OpenedRun(w, es);
    StreamToEnd(Open(w), cs);
    assert Open(w).buffer + Concat(cs) == Concat(cs);
  }

  /** A run whose first answer is not a refusal goes as if the request had
      already been sent. */
  lemma OpenedRun(w: State, es: seq<Event>)
    requires Valid(w) && w.phase == Requesting && EndComputable(w.seg)
    requires es != [] && !es[0].Refused?
    ensures Run(w, es) == Run(Open(w), es)
  {
    RunFirst(w, es);
    RunFirst(Open(w), es);
    assert Step(w, es[0]) == Step(Open(w), es[0]);
  }

  /** A run's first step, unfolded. */
  lemma RunFirst(w: State, es: seq<Event>)
    requires Valid(w) && es != []
    ensures Run(w, es) == Run(Step(w, es[0]), es[1..])
  {
  }

  /** Draining `data` in one flush right after the request leaves the
      worker complete with `data` written from its starting cursor. */
  lemma DrainOpened(w: State, data: seq<byte>)
    requires Valid(w) && EndComputable(w.seg)
    ensures Flush(Open(w).(buffer := data)).(cursor := SENTINEL, phase := Complete)
      == w.(phase := Complete,
            sr := w.sr + |data|,
            pos := w.sr + |data|,
            buffer := [],
            count := w.count + |data|,
            cursor := SENTINEL,
            file := Write(w.file, w.sr, data),
            requests := w.requests + [RequestRange(w.seg, w.sr)])
  {
  }

  /** Offset in the resource of the next byte the worker will receive. */
  function NextOffset(w: State): nat {
    w.sr + |w.buffer|
  }

  /** Event `e` is one a server honouring the worker's range request could
      send, for a resource whose bytes are `R`: a chunk carries the next
      bytes of the resource without passing the end of the segment, and the
      body ends only once the segment has been delivered. Errors and
      refusals may come at any time. */
  predicate Honest(R: seq<byte>, w: State, e: Event)
    requires ValidSegment(w.seg)
  {
    match e
    case Chunk(d) =>
      && NextOffset(w) + |d| <= SegmentLimit(w.seg) <= |R|
      && R[NextOffset(w)..NextOffset(w) + |d|] == d
    case End => NextOffset(w) == SegmentLimit(w.seg)
    case _ => true
  }

  /** Every event of `es` is honest in the state it arrives in. */
  predicate HonestRun(R: seq<byte>, w: State, es: seq<Event>)
    requires Valid(w)
    decreases |es|
  {
    es == [] || (Honest(R, w, es[0]) && HonestRun(R, Step(w, es[0]), es[1..]))
  }

  /** The worker's file holds the resource's bytes on `[from, sr)`, its
      buffer holds the resource's bytes that follow, it has not run past
      its segment, and it completed only after reaching the segment's end. */
  predicate Faithful(R: seq<byte>, from: nat, w: State)
    requires ValidSegment(w.seg)
  {
    && from <= w.sr
    && NextOffset(w) <= SegmentLimit(w.seg) <= |R|
    && (forall k :: from <= k < w.sr ==> k in w.file && w.file[k] == R[k])
    && w.buffer == R[w.sr..NextOffset(w)]
    && (w.phase == Complete ==> w.sr == SegmentLimit(w.seg))
  }

  /** Flushing a faithful buffer extends the faithful region of the file
      to the new `sr`. */
  lemma FlushFaithful(R: seq<byte>, from: nat, w: State)
    requires ValidSegment(w.seg) && w.pos == w.sr && Faithful(R, from, w)
    ensures var g := Flush(w);
      forall k :: from <= k < g.sr ==> k in g.file && g.file[k] == R[k]
  {
    var g := Flush(w);
    forall k | from <= k < g.sr
      ensures k in g.file && g.file[k] == R[k]
    {
      if w.sr <= k {
        assert g.file[k] == w.buffer[k - w.sr];
      } else {
        assert k in w.file && !(w.pos <= k < w.pos + |w.buffer|);
      }
    }
  }

  /** An honest chunk keeps an open worker faithful. */
  lemma ChunkFaithful(R: seq<byte>, from: nat, w: State, d: seq<byte>)
    requires Valid(w) && w.phase == Streaming
    requires Faithful(R, from, w) && Honest(R, w, Chunk(d))
    ensures Faithful(R, from, Receive(w, Chunk(d)))
  {
    if CAPACITY < |w.buffer| + |d| {
      assert Receive(w, Chunk(d)) == Flush(w).(cursor := w.sr + |w.buffer|, buffer := d);
      FlushThenBufferFaithful(R, from, w, d);
    } else {
      assert Receive(w, Chunk(d)) == w.(buffer := w.buffer + d);
      BufferExtends(R, w.sr, NextOffset(w), NextOffset(w) + |d|);
    }
  }

  /** Flushing a faithful buffer and then buffering the next honest chunk
      keeps the worker faithful. */
  lemma FlushThenBufferFaithful(R: seq<byte>, from: nat, w: State, d: seq<byte>)
    requires Valid(w) && w.phase == Streaming
    requires Faithful(R, from, w) && Honest(R, w, Chunk(d))
    ensures Faithful(R, from, Flush(w).(cursor := w.sr + |w.buffer|, buffer := d))
  {
    FlushFaithful(R, from, w);
  }

  lemma BufferExtends(R: seq<byte>, a: nat, b: nat, c: nat)
    requires a <= b <= c <= |R|
    ensures R[a..c] == R[a..b] + R[b..c]
  {
  }

  /** An honest end of body keeps an open worker faithful. */
  lemma EndFaithful(R: seq<byte>, from: nat, w: State)
    requires Valid(w) && w.phase == Streaming
    requires Faithful(R, from, w) && Honest(R, w, End)
    ensures Faithful(R, from, Receive(w, End))
  {
    if |w.buffer| > 0 {
      FlushFaithful(R, from, w);
    }
  }

  /** An honest body event keeps an open worker faithful. */
  lemma ReceiveFaithful(R: seq<byte>, from: nat, w: State, e: Event)
    requires Valid(w) && w.phase == Streaming
    requires Faithful(R, from, w) && Honest(R, w, e)
    ensures Faithful(R, from, Receive(w, e))
  {
    match e {
      case Chunk(d) => ChunkFaithful(R, from, w, d);
      case End => EndFaithful(R, from, w);
      case Error =>
      case Refused =>
    }
  }

  /** An honest event keeps any worker faithful. */
  lemma StepFaithful(R: seq<byte>, from: nat, w: State, e: Event)
    requires Valid(w) && Faithful(R, from, w) && Honest(R, w, e)
    ensures Faithful(R, from, Step(w, e))
  {
    if w.phase == Streaming {
      ReceiveFaithful(R, from, w, e);
    } else if w.phase == Requesting && EndComputable(w.seg) && !e.Refused? {
      assert NextOffset(Open(w)) == NextOffset(w);
      ReceiveFaithful(R, from, Open(w), e);
    }
  }

  /** Against a server that honours range requests, through any pattern of
      stream errors and retries, the worker keeps the file equal to the
      resource on every byte from its starting cursor up to `sr`, writes
      nothing outside that region, never runs past its segment, and
      completes only with the whole rest of the segment written. */
  lemma {:induction false} HonestDownload(R: seq<byte>, w: State, es: seq<Event>)
    requires Valid(w) && w.phase == Requesting
    requires w.sr <= SegmentLimit(w.seg) <= |R|
    requires HonestRun(R, w, es)
    ensures var r := Run(w, es);
      && r.sr <= SegmentLimit(w.seg)
      && (forall k :: w.sr <= k < r.sr ==> k in r.file && r.file[k] == R[k])
      && (forall k :: k in w.file && !(w.sr <= k < SegmentLimit(w.seg)) ==> k in r.file && r.file[k] == w.file[k])
      && (r.phase == Complete ==> r.sr == SegmentLimit(w.seg) && r.cursor == SENTINEL)
  {
    RunFaithful(R, w.sr, w, es);
    RunWritesContiguously(w, es);
    if Run(w, es).phase == Complete {
      RunCompletes(w, es);
    }
  }

  lemma {:induction false} RunFaithful(R: seq<byte>, from: nat, w: State, es: seq<Event>)
    requires Valid(w) && Faithful(R, from, w) && HonestRun(R, w, es)
    ensures Faithful(R, from, Run(w, es))
    decreases |es|
  {
    if es != [] {
      StepFaithful(R, from, w, es[0]);
      RunFaithful(R, from, Step(w, es[0]), es[1..]);
    }
  }

  /** A run from a non-terminal state that ends complete has set the
      cursor to the sentinel. */
  lemma {:induction false} RunCompletes(w: State, es: seq<Event>)
    requires Valid(w) && !Terminal(w) && Run(w, es).phase == Complete
    ensures Run(w, es).cursor == SENTINEL
    decreases |es|
  {
    var s := Step(w, es[0]);
    if !Terminal(s) {
      RunCompletes(s, es[1..]);
    } else {
      RunTerminal(s, es[1..]);
    }
  }

  /** A terminal worker stays exactly as it is. */
  lemma {:induction false} RunTerminal(w: State, es: seq<Event>)
    requires Valid(w) && Terminal(w)
    ensures Run(w, es) == w
    decreases |es|
  {
    if es != [] {
      RunTerminal(Step(w, es[0]), es[1..]);
    }
  }

  /** The segment's cursor-map entry follows the worker: it is `sr` until
      the segment completes, and the sentinel after. */
  predicate CursorTracks(w: State) {
    if w.phase == Complete then w.cursor == SENTINEL else w.cursor == w.sr
  }

  /** A worker spawned with its entry equal to its starting cursor keeps
      the entry equal to `sr` through every flush, error and retry, and
      leaves the sentinel once complete. */
  lemma {:induction false} RunTracksCursor(w: State, es: seq<Event>)
    requires Valid(w) && CursorTracks(w)
    ensures CursorTracks(Run(w, es))
    decreases |es|
  {
    if es != [] {
      var s := Step(w, es[0]);
      assert CursorTracks(s);
      RunTracksCursor(s, es[1..]);
    }
  }
}
